=== FILE: README.md ===
# hunter2 — a Dafny model of the bot's decision layer

hunter2 is a Mastodon bot that collects job vacancies. It watches the public
timeline for posts tagged with a job tag, and it answers mentions that ask it
to "index" a post. Posts it may index go into a search index. The code exists
in two generations:

- the older one under `src/` reacts to "index me";
- the newer one under `bot/` reacts to "index this".

Each generation is modelled in its own modules. The shared pieces are modelled
once:

- `Wrappers`: `Option` and `Result`.
- `Text`: character classes and substring occurrence.
- `IndexRequest`: the request detector `\Windex\s?<word>\W`. The final word is a
  parameter. The detector is given two ways and the two are proved equal: a
  token matcher that tries both ways of matching the optional whitespace, and a
  positional existential, "a non-word character, `index`, at most one
  whitespace character, the word, a non-word character". Both decide the same
  language as `Regex::is_match` on that expression; neither follows the regex
  crate's automaton.
- `TagFile`: the tag file, `read_all`, and Rust's `str::lines`.
- `Mastodon`: the client library's entities and stream events.
- `Robots`: the parsed profile page, abstracted to its robots meta elements.
- `Vacancies`: the conversion of a status into the search document.
- `SearchIndex`: the Meilisearch index, as a map from document id to document.
- `Streams`: a stream-watcher thread of either generation, as a fold over a
  finite stretch of its stream. It ends at the first event whose handling panics
  and keeps what it already sent.

The newer generation:

- `BotJobTagsRepository`: tag repositories; the file repository caches.
- `BotMayIndex`: the robots check and staleness.
- `BotMessages`: the channel message.
- `BotSocketClient`: the classifiers and the two stream watchers.
- `BotMain`: the consumer, `delete` by URL, and the start-up sequence.

The older generation:

- `SrcJobTags`: the tag file.
- `SrcJobTagsRepository`: tag repositories; the file repository re-reads.
- `SrcMayIndex`: the robots check.
- `SrcMain`: the classifiers, watchers, consumer and start-up.

Everything is a pure function of its inputs. The outside world comes in as
parameters:

- the file system is a `map<string, string>`;
- the web is a function from URL to `Response`, where `Failed` is a failed
  request;
- `get_status` is a function from id to `Option<Status>`;
- the hashtag timelines are a function from tag to statuses;
- the clock is the `now` argument of `IsStale`, with instants as integer
  nanoseconds.

The consumer thread is a fold over the sequence of messages it receives. It
produces the trace of its effects: index additions and favourites in `bot/`;
outputs and replies in `src/`. A panic is an `Err` or a `Panicked` outcome.

Where the code and its description disagree, the model follows the code:

- **`none` in the robots check.** The robots `content` check is a substring
  test for `noindex` or `none`, not a test for exact tokens.
- **The consumer's checks.** The `bot/` consumer checks only `may_index`.
  There is no duplicate check, no staleness check and no exclusion of replies.
  `is_stale` is defined but never called.
- **`NewMessage`.** The `Message` enum in bot/src/main.rs has no `NewMessage`
  variant, although the notification watcher sends one and the consumer has no
  arm for it. The model has the variant, and the consumer gives it no effect.

## Model

| member | source | states |
|---|---|---|
| IndexRequest.PatternMatchesIffPhrase | bot/src/cli/socket_client.rs:134-141 | the regex matcher started at a position succeeds exactly when the request phrase (non-word char, `index`, at most one whitespace, word, non-word char) starts there |
| IndexRequest.IsMatchIffHasRequest | src/main.rs:160-167 | `is_match` of `\Windex\s?<word>\W` holds iff some position starts the request phrase |
| IndexRequest.HasRequestInContext | bot/src/cli/socket_client.rs:134-141 | a request stays a request whatever text is added before or after it |
| IndexRequest.NoRequestInStretchedQuestion | bot/src/cli/socket_client.rs:233-237 | "Where is the index? Could you tell me?" is no request, for any word starting with a word character (so for both "this" and "me") |
| TagFile.ReadAll | bot/src/ports/job_tags_repository.rs:31-37 | reading fails exactly when the file is missing, with "file not found: <name>"; otherwise the result is exactly the file's lines as `str::lines` splits them, none of which contains a line feed |
| TagFile.LinesOfUnlines | bot/src/ports/job_tags_repository.rs:34-36 | tags written one per line are read back as the same tags, in order and verbatim |
| TagFile.UnlinesOfLines | src/job_tags.rs:5-10 | a file without carriage returns that ends in a line feed is exactly its lines written back one per line |
| Vacancies.TimestampMillis | src/vacancy.rs:75 | the millisecond timestamp is the whole number of milliseconds at or before the instant |
| Vacancies.FromAccount | src/vacancy.rs:84-97 | the seven account fields are copied unchanged |
| Vacancies.MediaTypeRoundTrip | src/vacancy.rs:104-109 | each media type maps to the variant of the same name; the mapping and its inverse undo each other |
| Vacancies.FromAttachments | src/vacancy.rs:99-121 | same length and order; every attachment keeps id, url, remote url, preview url and media type |
| Vacancies.FromTags | src/vacancy.rs:123-127 | same length, order and names |
| Vacancies.FromCard | src/vacancy.rs:78 | no card stays no card; a card keeps url, title, description and image |
| Vacancies.FromStatus | src/vacancy.rs:66-82 | id, uri, url, content, language and creation time are copied; the timestamp brackets the creation time; account, attachments, tags and card are converted |
| Vacancies.SameDocumentIffSameKeptFields | src/vacancy.rs:66-138 | two statuses give the same document exactly when they agree on every kept field |
| SearchIndex.Add | bot/src/ports/search_index_repository.rs:36 | adding with primary key `id` stores the document under its id, keeps every other document, and keeps the index keyed by id |
| SearchIndex.AddIdempotent | bot/src/ports/search_index_repository.rs:36 | adding the same document twice is adding it once; a later version replaces an earlier one |
| SearchIndex.SearchByUrl | bot/src/main.rs:137-141 | the filter `url = '<url>'` selects exactly the documents whose url is that url |
| SearchIndex.SearchAfterAdd | bot/tests/integration_tests.rs:33-59 | after an upsert, the added document is a hit for a url exactly when it has that url, and the other hits are those of before |
| BotJobTagsRepository.NewFileRepository | bot/src/ports/job_tags_repository.rs:9-14 | building the file repository fails with "file not found" exactly when the file is missing, and otherwise holds the file's lines |
| BotJobTagsRepository.FileRepositoryIsCached | bot/src/ports/job_tags_repository.rs:16-30 | the file repository serves the lines of the file as it was when built, whatever the file holds later; the memory repository serves its field |
| BotMayIndex.MetaRobotsIsAllowed | bot/src/hunter2/may_index.rs:28-41 | indexing is forbidden exactly when the first robots meta element has a `content` containing `noindex` or `none` |
| BotMayIndex.MayIndex | bot/src/hunter2/may_index.rs:8-26 | a failed fetch allows indexing; otherwise the robots check of the page decides |
| BotMayIndex.OnlyFirstRobotsMetaCounts | bot/src/hunter2/may_index.rs:32 | robots meta elements after the first never change the decision |
| BotMayIndex.IndexDoesNotForbid | bot/src/hunter2/may_index.rs:54-59 | the content "index" mentions neither `noindex` nor `none` |
| BotMayIndex.MetaRobotsExamples | bot/src/hunter2/may_index.rs:48-85 | the unit tests: no tag, "index" and no content allow; "none", "noindex" and "nosnippet noindex nofollow" forbid; a second tag is ignored |
| BotMayIndex.IsStale | bot/src/hunter2/may_index.rs:6-16 | stale exactly when the post is more than 62 days older than now |
| BotMayIndex.StalenessBoundary | bot/src/hunter2/may_index.rs:87-97 | a post from now or exactly 62 days old is not stale; one a nanosecond older, or 63 days old, is |
| BotMayIndex.StalenessMonotone | bot/src/hunter2/may_index.rs:13-16 | anything older than a stale post is stale, and a stale post stays stale as time passes |
| BotSocketClient.AnyTagIn | bot/src/cli/socket_client.rs:79-82 | some tag name is, exactly, in the list |
| BotSocketClient.HasJobRelatedTags | bot/src/cli/socket_client.rs:74-83 | true iff some tag name of the post is exactly one of the repository's tags; false without tags or without job tags |
| BotSocketClient.JobTagExamples | bot/src/cli/socket_client.rs:163-206 | the unit tests against a memory repository with "jobs", plus case sensitivity |
| BotSocketClient.HasIndexThisRequestIff | bot/src/cli/socket_client.rs:134-141 | the "index this" request holds iff the phrase with "this" starts at some position |
| BotSocketClient.IndexThisInSentence | bot/src/cli/socket_client.rs:208-213 | the request in running text is recognised |
| BotSocketClient.IndexThisAsOneWord | bot/src/cli/socket_client.rs:215-219 | "indexthis" written as one word is recognised |
| BotSocketClient.IndexThisAsHashtag | bot/src/cli/socket_client.rs:221-225 | "#indexthis" in a link is recognised |
| BotSocketClient.IndexThisAcrossLineFeed | bot/src/cli/socket_client.rs:138 | a line feed counts as the one optional whitespace character |
| BotSocketClient.NoIndexThisInQuestion | bot/src/cli/socket_client.rs:227-231 | "are you a bot?" is no request |
| BotSocketClient.NoIndexThisWhenStretched | bot/src/cli/socket_client.rs:233-237 | "index" and "this" far apart are no request |
| BotSocketClient.NoIndexThisInPartialWords | bot/src/cli/socket_client.rs:239-243 | "reindex thistle" is no request |
| BotSocketClient.IndexThisNeedsSurroundingCharacters | bot/src/cli/socket_client.rs:135-138 | the phrase touching the start or the end of the content is no request |
| BotSocketClient.IndexThisIsStrict | bot/src/cli/socket_client.rs:135-138 | two spaces, a word in between, or a capital letter defeat the request |
| BotSocketClient.IsInReplyTo | bot/src/cli/socket_client.rs:143-154 | no parent without a status or without `in_reply_to_id`; otherwise the looked-up parent, and a failed lookup panics |
| BotSocketClient.CaptureUpdate | bot/src/cli/socket_client.rs:63-69 | an update sends exactly one `Vacancy` of its status iff it has a job tag; any other event sends nothing |
| BotSocketClient.CaptureNotification | bot/src/cli/socket_client.rs:91-128 | without status nothing; without the request one "did not understand" reply to the status; with it and a parent, the parent's `Vacancy` then the thanks reply to the parent; with it and no parent nothing |
| BotSocketClient.WatchUpdates | bot/src/cli/socket_client.rs:60-72 | every message sent is a `Vacancy` of a job-tagged update from the stream, at most one per event, and every job-tagged update in the stream is sent |
| BotSocketClient.WatchUpdatesOne | bot/src/cli/socket_client.rs:63-69 | over one event the watcher sends exactly what capturing that event sends |
| BotSocketClient.WatchUpdatesAppend | bot/src/cli/socket_client.rs:63-70 | the watcher's output over two stretches of the stream is the two outputs in order |
| BotSocketClient.WatchNotifications | bot/src/cli/socket_client.rs:89-131 | the watcher panics exactly when handling some notification panics; every message comes from capturing some notification, and without a panic everything captured is sent; every `Vacancy` is directly followed by the thanks reply to it, every reply is addressed, and at most two messages are sent per event |
| BotSocketClient.WatchNotificationsOne | bot/src/cli/socket_client.rs:91-128 | over one event the watcher sends what capturing it sends, or panics with nothing sent when capturing it panics |
| BotSocketClient.WatchNotificationsAppend | bot/src/cli/socket_client.rs:89-131 | a panic in the first stretch of the stream ends the watcher there; otherwise its output over two stretches is the two outputs in order |
| BotMain.HandleMessage | bot/src/main.rs:109-125 | only an indexable `Vacancy` has effects: the converted document is added, then the post is favourited |
| BotMain.UntilTerm | bot/src/main.rs:121-124 | the messages before the first `Term`: a prefix of the queue without `Term`, followed by `Term` unless it is the whole queue |
| BotMain.HandleMessages | bot/src/main.rs:106-128 | every added document is directly followed by the favourite of its post |
| BotMain.EffectsHaveCauses | bot/src/main.rs:110-118 | every effect comes from an indexable `Vacancy` handled before the first `Term` |
| BotMain.NothingAfterTerm | bot/src/main.rs:121-124 | nothing after the first `Term` is handled |
| BotMain.HandleMessagesAppend | bot/src/main.rs:106-108 | before any `Term`, messages are handled one after the other in FIFO order |
| BotMain.Consume | bot/src/main.rs:106-128 | the message loop computes the fold |
| BotMain.ApplyEffects | bot/src/main.rs:113 | the index gains exactly the ids of the added documents, stays keyed by id, and keeps every document whose id no addition names |
| BotMain.ApplyEffectsAppend | bot/src/main.rs:106-113 | applying two traces one after the other is applying their concatenation |
| BotMain.ApplyEffectsOne | bot/src/main.rs:113-114 | one addition is one upsert of its document; a favourite leaves the index as it is |
| BotMain.LastAddWins | bot/src/main.rs:113 | under an id lies the document of the last addition with that id |
| BotMain.HandledVacanciesAreIndexed | bot/src/main.rs:110-113 | every indexable vacancy handled ends up in the index under its post's id |
| BotMain.HandledIds | bot/src/main.rs:106-124 | the consumer adds documents under exactly the post ids of the indexable vacancies it handles |
| BotMain.HandlingIndexes | bot/src/main.rs:106-124 | the index gains exactly the ids of the indexable vacancies handled, and every other document stays as it was |
| BotMain.LatestVacancyWins | bot/src/main.rs:110-113 | when no later indexable vacancy handled has the same post id, the index holds the converted document of this one |
| BotMain.AddedIdsSplit | bot/src/main.rs:113 | the ids two traces add together are those each adds |
| BotMain.HandleMessageIds | bot/src/main.rs:109-114 | one message adds a document exactly under the post id of an indexable vacancy |
| BotMain.Delete | bot/src/main.rs:131-155 | no hits: Err "could not find a vacancy with url: …" and nothing removed; otherwise every hit is removed, every other document stays untouched, and a new search finds none |
| BotMain.Backfill | bot/src/cli/tag_fetcher.rs:17-26 | every message is a `Vacancy` of a post from some listed tag's timeline, and every post of every listed tag's timeline is sent as a `Vacancy` |
| BotMain.BackfillAppend | bot/src/cli/tag_fetcher.rs:18-24 | the backfill of two tag lists is the first list's backfill followed by the second's |
| BotMain.BackfillOfOneTag | bot/src/cli/tag_fetcher.rs:19-23 | one tag sends its timeline's posts as `Vacancy` messages, one per post, in timeline order |
| BotMain.StartupMessages | bot/src/main.rs:83-94 | with `past` the backfill is sent first, whole; then the greetings with `follow`, or exactly one `Term`, last, without it |
| BotMain.Run | bot/src/main.rs:45-98 | help, then register, then delete return before anything else; a delete with no hits is `Err` "could not find a vacancy with url: …", otherwise it removes exactly the hits and keeps every other document; a panic happens exactly when the credentials or the tag file are missing; otherwise the tag file exists, main sends the start-up messages for the file's lines, and the consumer's trace and the index are the fold over them |
| BotMain.ConsumerHandlesBackfill | bot/src/main.rs:83-96 | without `follow` the consumer handles exactly the backfill; with it, the trace is the backfill's effects followed by those of whatever the watchers send later |
| BotMain.GreetingsHaveNoEffect | bot/src/main.rs:120 | the two greetings have no effect on the consumer |
| SrcJobTags.Tags | src/job_tags.rs:1-11 | fails exactly when the file is missing, with a message starting "file not found: <name>: "; otherwise the tags are exactly the file's lines |
| SrcJobTags.TagsOfWrittenFile | src/job_tags.rs:5-10 | tags written one per line are read back verbatim and in order |
| SrcJobTagsRepository.Tags | src/ports/job_tags_repository.rs:15-36 | the file repository returns the lines of the file as it is at the call; the memory repository returns its field |
| SrcJobTagsRepository.FileRepositoryRereads | src/ports/job_tags_repository.rs:9-19 | after the file changes, the re-reading repository serves the new lines and agrees with the caching one exactly when the lines are unchanged |
| SrcMayIndex.DetermineMetaRobots | src/may_index.rs:20-33 | indexing is forbidden exactly when the first robots meta element has a `content` containing `noindex` or `none` |
| SrcMayIndex.MayIndex | src/may_index.rs:5-18 | a failed fetch allows indexing; otherwise the robots check of the page decides |
| SrcMayIndex.DetermineMetaRobotsExamples | src/may_index.rs:39-76 | the unit tests of the robots check |
| SrcMayIndex.SameDecisionAsBot | src/may_index.rs:5-33 | both generations take the same decision for every page and every response |
| SrcMain.ReadTagFile | src/main.rs:157 | an unset `TAG_FILE` or a missing file panics; otherwise the file's lines |
| SrcMain.AnyTagListed | src/main.rs:154-157 | true iff some tag name is exactly a line of the tag file, failing when the file cannot be read |
| SrcMain.HasJobRelatedTags | src/main.rs:152-158 | false without tags, without touching the file; otherwise true iff some tag name is a line of the tag file, and a panic exactly when the file cannot be read |
| SrcMain.JobTagExamples | src/main.rs:340-377 | the unit tests with a tag file listing "jobs" |
| SrcMain.HasIndexMeRequestIff | src/main.rs:160-167 | the "index me" request holds iff the phrase with "me" starts at some position |
| SrcMain.IndexMeInSentence | src/main.rs:379-384 | the request in running text is recognised |
| SrcMain.IndexMeBetweenTags | src/main.rs:386-391 | "indexme" between tags is recognised |
| SrcMain.NoIndexMeExamples | src/main.rs:393-409 | "are you a bot?", the stretched question, "reindex meebo" and "index like me" are no requests |
| SrcMain.CaptureNotification | src/main.rs:180-198 | only a notification with a status sends anything: `IndexMe` then `ReplyUnderstood` of the status when it asks "index me", otherwise just `ReplyDontUnderstand` of it |
| SrcMain.WatchNotifications | src/main.rs:174-201 | every message comes from capturing some event and everything captured is sent, at most two per event; every `IndexMe` is directly followed by `ReplyUnderstood` of the same status and carries the request; every `ReplyDontUnderstand` lacks it |
| SrcMain.WatchNotificationsOne | src/main.rs:180-198 | over one event the watcher sends exactly what capturing it sends |
| SrcMain.WatchNotificationsAppend | src/main.rs:174-201 | the watcher's output over two stretches of the stream is the two outputs in order |
| SrcMain.CaptureUpdate | src/main.rs:203-219 | fails exactly when an update's tag check cannot read the tag file; otherwise sends at most one message, a `Vacancy` of the status, exactly when the event is an update with a listed tag |
| Streams.Watching | src/main.rs:203-219 | a stream watcher crashes exactly when some event's step fails; every message comes from some event's step, and without a crash every event's messages are sent |
| Streams.WatchingAppend | src/main.rs:205-217 | a crash in the first stretch of the stream ends the watcher there; otherwise the output over two stretches is the two outputs in order |
| Streams.WatchingOne | src/main.rs:205-217 | over one event the watcher sends that event's messages, or panics having sent nothing |
| Streams.WatchingKeeps | bot/src/cli/socket_client.rs:89-131 | a property of message sequences that holds of every event's messages and is closed under sending one sequence after another holds of the whole output |
| Streams.WatchingBound | bot/src/cli/socket_client.rs:89-131 | when no event yields more than `k` messages, the watcher sends at most `k` per event |
| SrcMain.WatchUpdates | src/main.rs:203-219 | every message sent is a `Vacancy` of an update in the stream whose tags include a listed one |
| SrcMain.WatchUpdatesComplete | src/main.rs:205-212 | the updates watcher panics exactly when some update's tag check cannot read the tag file; otherwise every job-tagged update is sent |
| SrcMain.WatchUpdatesAppend | src/main.rs:205-217 | a panic in the first stretch ends the updates watcher there; otherwise its output over two stretches is the two outputs in order |
| SrcMain.HandleMessage | src/main.rs:230-255 | at most one effect; none exactly for `Generic`, `Term`, a `Vacancy` that may not be indexed, or an `IndexMe` whose rich account cannot be fetched; a `Vacancy` gives only the converted document, `IndexMe` only its author's account, and each reply kind only a reply to its status, in English, with the matching text |
| SrcMain.Handling | src/main.rs:227-258 | for any per-message handler, every effect of the loop comes from handling some message of the queue |
| SrcMain.HandlingAfterTerm | src/main.rs:251-254 | for any handler, the loop ignores everything after the first `Term` |
| SrcMain.HandlingAppend | src/main.rs:227-229 | for any handler, before any `Term` the loop handles the messages one after the other |
| SrcMain.HandleMessages | src/main.rs:227-258 | every reply the consumer posts is addressed and in English |
| SrcMain.NothingAfterTerm | src/main.rs:251-254 | nothing after the first `Term` is handled |
| SrcMain.HandleMessagesAppend | src/main.rs:227-229 | before any `Term`, messages are handled in FIFO order |
| SrcMain.NotificationIsAnswered | src/main.rs:184-193 | each notification with a status gets exactly one reply to that status, "understood" iff it asks "index me"; with the request the reply is preceded by the candidate output exactly when the rich account can be fetched |
| SrcMain.BackfillVacancies | src/main.rs:95-101 | every message is a `Vacancy` of a post with a listed tag from a listed tag's timeline, and every such post is sent |
| SrcMain.BackfillVacanciesAppend | src/main.rs:94-101 | the backfill goes tag by tag in the order of the tag file: over two tag lists it is the first list's backfill followed by the second's, a post listed under two tags being sent twice |
| SrcMain.BackfillVacanciesOne | src/main.rs:96-100 | one tag sends the job posts of its timeline, in timeline order |
| SrcMain.JobPosts | src/main.rs:96-100 | the posts kept are those with a listed tag, all of them and no others, at most one message per post |
| SrcMain.JobPostsAppend | src/main.rs:96-100 | filtering two lists of posts is filtering each, in order |
| SrcMain.RequestsIn | src/main.rs:102-108 | every message is an `IndexMe` of a notification's status that asks "index me", and every such status is sent |
| SrcMain.RequestsInAppend | src/main.rs:102-108 | the requests keep notification order: over two stretches of notifications they are the first's followed by the second's |
| SrcMain.RequestsInOne | src/main.rs:103-107 | one notification sends one `IndexMe` of its status exactly when the status asks "index me" |
| SrcMain.Backfill | src/main.rs:93-109 | without `-p` nothing; with it every job-tagged post of a listed tag's timeline and every "index me" notification status, vacancies first, and nothing else |
| SrcMain.BackfillInOrder | src/main.rs:93-109 | with `-p` the backfill is the tag-by-tag vacancies followed by the requests in notification order |
| SrcMain.StartupMessages | src/main.rs:93-129 | the backfill is sent first, whole; then the greetings with `-f`, or exactly one `Term`, last, without it |
| SrcMain.GreetingsHaveNoEffect | src/main.rs:250 | the two greetings have no effect on the consumer |
| SrcMain.ConsumerHandlesBackfill | src/main.rs:93-129 | without `-f` the consumer handles exactly the backfill, whatever arrives later; with it, the trace is the backfill's effects followed by those of whatever the watchers send later |
| SrcMain.BackfillCheckAgrees | src/main.rs:95-97 | re-reading the tag file for each post agrees with the list read for the backfill |
| SrcMain.Run | src/main.rs:52-133 | help, then register return first; a panic happens exactly when the credentials fail, or the backfill cannot read the tag file; otherwise main sends the start-up messages for the tag file's lines (none without `-p`), the trace is the fold over them, and without `-f` the consumer stops at the single `Term` after the backfill |

## Left out

- Threads, the channel, and the `try_recv` and sleep loop: these are concurrency. The consumer is a fold over the messages in the order they are sent.
- Interleaving of the watchers with main: in `src/main.rs` the notification watcher starts before the second greeting is sent (lines 111-123). In `bot/src/main.rs` the updates watcher starts before the notification watcher's greeting is sent (lines 89-91, and bot/src/cli/socket_client.rs:29-35). `StartupMessages` lists what main itself sends, in its order.
- The client library's network calls: streaming, `get_status`, `favourite`, `new_status`, hashtag timelines and notifications. They are parameters, or effects in the trace. The OAuth `register` flow is a single outcome.
- `fetch_rich_account` (webfinger, HTTP, JSON, SHA-1) is the `richAccount` oracle. Its internal `unwrap` panics are not modelled.
- HTML parsing and the HTTP GET: a page is the list of its robots meta elements.
- The Meilisearch client and the output sinks (`src/output.rs`, `src/ports/search_index_port.rs`, the JSONL and Meilisearch flags). The index is a map.
- The default hit limit of a Meilisearch search.
- The `MEILI_*` environment lookups in `delete` and in the index writer.
- A failed timeline or notifications fetch during the backfill. In `bot/src/main.rs` the backfill's `expect` panics when `run_once` returns an error (lines 85-86, and bot/src/cli/tag_fetcher.rs:19-23). In `src/main.rs` the `?` after `get_tagged_timeline` and after `notifications()` (lines 96 and 102) makes main return `Err` after sending part of the backfill. The model's timelines and notifications are total.
- Command-line parsing and the error wrappers; `src/candidate.rs`, which is data only; and logging.
- The newer watcher of updates builds its own file repository when it starts. That repository is the watcher's parameter.
- SrcMain.WatchUpdates: takes one `files` for the whole stream, while the source re-reads the tag file for each update (src/main.rs:154-157). A tag file edited while the watcher runs is not modelled; `SrcJobTagsRepository.FileRepositoryRereads` states the re-reading for the newer repository only.
- Regex classes `\w` and `\s` are ASCII: `[A-Za-z0-9_]` and space, tab, line feed, vertical tab, form feed and carriage return. Unicode letters and spaces are not modelled.
- Vacancies.TimestampMillis: does not model the `i64` range of chrono's timestamps, because instants are unbounded integers.
- BotMain.HandleMessage: the document added is built with the `src/vacancy.rs` conversion. The newer generation imports its own `hunter2::vacancy` (bot/src/main.rs:31, 113), which is not part of this model.
- BotMain.HandleMessage: the favourite is an effect whether or not the call succeeds, because the source only logs a failure.
- SrcJobTags.Tags: the text after "file not found: <name>: " is the `Debug` form of the I/O error. The model fixes it to the Linux not-found error, and its contract promises only the prefix.
- SrcMain.HandleMessage: a reply is an effect whether or not posting it succeeds, because the source only logs a failure.

=== FILE: bot_job_tags_repository.dfy ===
/** The job-tag repositories of the newer generation
    (bot/src/ports/job_tags_repository.rs). The file repository reads the tag
    file once, when it is built, and serves that list from then on. */
module BotJobTagsRepository {
  import opened Wrappers
  import opened TagFile

  datatype Repository =
    | FileRepository(tags: seq<string>)
    | MemoryRepository(tags: seq<string>)

  /** `JobTagsFileRepository::new`: read the file now; a missing file panics. */
  function NewFileRepository(files: Files, fileName: string): (r: Result<Repository, string>)
    ensures r.Err? <==> fileName !in files
    ensures r.Err? ==> r.error == "file not found: " + fileName
    ensures r.Ok? ==> r.value.FileRepository? && r.value.tags == Lines(files[fileName])
  {
    match ReadAll(files, fileName)
    case Ok(tags) => Ok(FileRepository(tags))
    case Err(e) => Err(e)
  }

  /** `JobTagsRepository::tags`: both repositories hand out their stored list. */
  function Tags(repo: Repository): seq<string> {
    repo.tags
  }

  /** A file repository keeps serving the lines the file had when it was built,
      whatever the file holds later; a memory repository serves its field. */
  lemma FileRepositoryIsCached(files: Files, fileName: string, later: Files, tags: seq<string>)
    requires fileName in files
    ensures NewFileRepository(files, fileName).Ok?
    ensures Tags(NewFileRepository(files, fileName).value) == Lines(files[fileName])
    ensures fileName in later ==>
              ((Tags(NewFileRepository(files, fileName).value) == ReadAll(later, fileName).value) <==>
               (Lines(later[fileName]) == Lines(files[fileName])))
    ensures Tags(MemoryRepository(tags)) == tags
  {
  }
}

=== FILE: bot_main.dfy ===
/** The consumer and start-up of the newer generation (bot/src/main.rs).

    The consumer thread drains the channel in FIFO order; here it is a fold over
    the sequence of messages it receives, producing the trace of effects it has
    on the outside world. The search index is a map from document id to
    document, and `main` is a function of its options and its environment. */
module BotMain {
  import opened Wrappers
  import opened Mastodon
  import opened Robots
  import opened BotMessages
  import opened SearchIndex
  import TagFile
  import Repo = BotJobTagsRepository
  import V = Vacancies
  import BotMayIndex

  /** An action of the consumer on the outside world. */
  datatype Effect =
    | IndexAdd(doc: V.Vacancy)
    | FavouriteStatus(statusId: string)

  /** The effects of handling one message; `web` answers the GET of a profile URL.
      Only an indexable vacancy has any; a failed favourite is only logged. */
  function HandleMessage(m: Message, web: string -> Response): (effects: seq<Effect>)
    ensures effects != [] <==> m.Vacancy? && BotMayIndex.MayIndex(web(m.status.account.url))
    ensures effects != [] ==>
              effects == [IndexAdd(V.FromStatus(m.status)), FavouriteStatus(m.status.id)]
  {
    match m
    case Vacancy(status) =>
      if BotMayIndex.MayIndex(web(status.account.url)) then
        [IndexAdd(V.FromStatus(status)), FavouriteStatus(status.id)]
      else []
    case _ => []
  }

  /** The messages the consumer handles: those before the first `Term`. */
  function UntilTerm(queue: seq<Message>): (handled: seq<Message>)
    ensures |handled| <= |queue| && handled == queue[..|handled|]
    ensures forall i :: 0 <= i < |handled| ==> !handled[i].Term?
    ensures |handled| < |queue| ==> queue[|handled|].Term?
  {
    if queue == [] || queue[0].Term? then []
    else [queue[0]] + UntilTerm(queue[1..])
  }

  /** Every indexed document is directly followed by the favourite of its post. */
  predicate FavouriteFollowsEachAdd(trace: seq<Effect>) {
    forall i :: 0 <= i < |trace| && trace[i].IndexAdd? ==>
      i + 1 < |trace| && trace[i + 1] == FavouriteStatus(trace[i].doc.id)
  }

  /** Every effect has its cause among `handled`: an indexable vacancy. */
  predicate EffectsCaused(trace: seq<Effect>, handled: seq<Message>, web: string -> Response) {
    forall e :: e in trace ==>
      exists m :: m in handled && m.Vacancy? && BotMayIndex.MayIndex(web(m.status.account.url)) &&
        (e == IndexAdd(V.FromStatus(m.status)) || e == FavouriteStatus(m.status.id))
  }

  lemma FavouritePairingConcat(a: seq<Effect>, b: seq<Effect>)
    requires FavouriteFollowsEachAdd(a) && FavouriteFollowsEachAdd(b)
    ensures FavouriteFollowsEachAdd(a + b)
  {
    var t := a + b;
    forall i | 0 <= i < |t| && t[i].IndexAdd?
      ensures i + 1 < |t| && t[i + 1] == FavouriteStatus(t[i].doc.id)
    {
      if i < |a| {
        assert t[i + 1] == a[i + 1];
      } else {
        assert t[i] == b[i - |a|];
      }
    }
  }

  /** `handle_messages`: handle each message in turn and stop at the first `Term`. */
  function HandleMessages(queue: seq<Message>, web: string -> Response): (trace: seq<Effect>)
    ensures FavouriteFollowsEachAdd(trace)
  {
    if queue == [] || queue[0].Term? then []
    else
      var first := HandleMessage(queue[0], web);
      var rest := HandleMessages(queue[1..], web);
      FavouritePairingConcat(first, rest);
      first + rest
  }

  /** Every effect of the consumer comes from an indexable vacancy it handled. */
  lemma {:induction false} EffectsHaveCauses(queue: seq<Message>, web: string -> Response)
    ensures EffectsCaused(HandleMessages(queue, web), UntilTerm(queue), web)
  {
    if queue != [] && !queue[0].Term? {
      EffectsHaveCauses(queue[1..], web);
      assert UntilTerm(queue) == [queue[0]] + UntilTerm(queue[1..]);
    }
  }

  /** Nothing after the first `Term` is handled. */
  lemma {:induction false} NothingAfterTerm(a: seq<Message>, b: seq<Message>, web: string -> Response)
    requires forall i :: 0 <= i < |a| ==> !a[i].Term?
    ensures HandleMessages(a + [Term] + b, web) == HandleMessages(a, web)
    ensures UntilTerm(a + [Term] + b) == a
  {
    if a == [] {
      assert (a + [Term] + b)[0] == Term;
    } else {
      var q := a + [Term] + b;
      assert q[0] == a[0];
      assert q[1..] == a[1..] + [Term] + b;
      NothingAfterTerm(a[1..], b, web);
    }
  }

  /** Before any `Term` the consumer handles messages one after the other, in the
      order they were sent: a longer queue only extends the trace. */
  lemma {:induction false} HandleMessagesAppend(a: seq<Message>, b: seq<Message>, web: string -> Response)
    requires forall i :: 0 <= i < |a| ==> !a[i].Term?
    ensures HandleMessages(a + b, web) == HandleMessages(a, web) + HandleMessages(b, web)
  {
    if a == [] {
      assert a + b == b;
    } else {
      assert (a + b)[0] == a[0];
      assert (a + b)[1..] == a[1..] + b;
      HandleMessagesAppend(a[1..], b, web);
    }
  }

  /** The consumer loop itself, message by message. */
  method Consume(queue: seq<Message>, web: string -> Response) returns (trace: seq<Effect>)
    ensures trace == HandleMessages(queue, web)
  {
    trace := [];
    var i := 0;
    while i < |queue| && !queue[i].Term?
      invariant 0 <= i <= |queue|
      invariant trace + HandleMessages(queue[i..], web) == HandleMessages(queue, web)
    {
      var first, rest := HandleMessage(queue[i], web), HandleMessages(queue[i + 1..], web);
      assert HandleMessages(queue[i..], web) == first + rest by {
        assert queue[i..][0] == queue[i] && queue[i..][1..] == queue[i + 1..];
      }
      assert (trace + first) + rest == trace + (first + rest);
      trace := trace + first;
      i := i + 1;
    }
    assert HandleMessages(queue[i..], web) == [] by {
      assert queue[i..] == [] || queue[i..][0].Term?;
    }
  }

  /** The ids of the documents a trace adds. */
  function AddedIds(trace: seq<Effect>): set<string> {
    set e | e in trace && e.IndexAdd? :: e.doc.id
  }

  /** The ids two traces add together are those each adds. */
  lemma AddedIdsSplit(a: seq<Effect>, b: seq<Effect>)
    ensures AddedIds(a + b) == AddedIds(a) + AddedIds(b)
  {
    assert forall e :: e in a + b <==> e in a || e in b;
  }

  /** The search index after a trace of effects: each addition is an upsert by
      id, and favourites do not touch it. The index gains exactly the added ids,
      and a document no addition names is untouched. */
  function ApplyEffects(ix: Index, trace: seq<Effect>): (ix': Index)
    ensures ix'.Keys == ix.Keys + AddedIds(trace)
    ensures WellKeyed(ix) ==> WellKeyed(ix')
    ensures forall id :: id in ix && id !in AddedIds(trace) ==> ix'[id] == ix[id]
    decreases |trace|
  {
    if trace == [] then ix
    else
      var ix1 := if trace[0].IndexAdd? then Add(ix, trace[0].doc) else ix;
      AddedIdsSplit([trace[0]], trace[1..]);
      assert [trace[0]] + trace[1..] == trace;
      assert AddedIds([trace[0]]) == if trace[0].IndexAdd? then {trace[0].doc.id} else {};
      ApplyEffects(ix1, trace[1..])
  }

  /** Applying two traces one after the other is applying their concatenation. */
  lemma {:induction false} ApplyEffectsAppend(ix: Index, a: seq<Effect>, b: seq<Effect>)
    ensures ApplyEffects(ix, a + b) == ApplyEffects(ApplyEffects(ix, a), b)
    decreases |a|
  {
    if a == [] {
      assert a + b == b;
    } else {
      var ix1 := if a[0].IndexAdd? then Add(ix, a[0].doc) else ix;
      assert (a + b)[0] == a[0] && (a + b)[1..] == a[1..] + b;
      ApplyEffectsAppend(ix1, a[1..], b);
    }
  }

  /** One addition is one upsert; a favourite leaves the index as it is. */
  lemma ApplyEffectsOne(ix: Index, e: Effect)
    ensures e.IndexAdd? ==> ApplyEffects(ix, [e]) == Add(ix, e.doc)
    ensures e.FavouriteStatus? ==> ApplyEffects(ix, [e]) == ix
  {
    assert [e][1..] == [];
  }

  /** The last addition of an id wins: under it lies that addition's document. */
  lemma LastAddWins(ix: Index, trace: seq<Effect>, i: nat)
    requires i < |trace| && trace[i].IndexAdd?
    requires trace[i].doc.id !in AddedIds(trace[i + 1..])
    ensures trace[i].doc.id in ApplyEffects(ix, trace)
    ensures ApplyEffects(ix, trace)[trace[i].doc.id] == trace[i].doc
  {
    var d := trace[i].doc;
    assert trace == trace[..i] + ([trace[i]] + trace[i + 1..]);
    ApplyEffectsAppend(ix, trace[..i], [trace[i]] + trace[i + 1..]);
    var ix0 := ApplyEffects(ix, trace[..i]);
    ApplyEffectsAppend(ix0, [trace[i]], trace[i + 1..]);
    ApplyEffectsOne(ix0, trace[i]);
  }

  /** Every indexable vacancy the consumer handles ends up in the index under its
      post's id, and the documents already there stay there. */
  lemma HandledVacanciesAreIndexed(ix: Index, queue: seq<Message>, web: string -> Response, s: Status)
    requires Vacancy(s) in UntilTerm(queue)
    requires BotMayIndex.MayIndex(web(s.account.url))
    ensures s.id in ApplyEffects(ix, HandleMessages(queue, web))
    ensures ix.Keys <= ApplyEffects(ix, HandleMessages(queue, web)).Keys
  {
    HandlingIndexes(ix, queue, web);
    assert s.id in IndexableIds(UntilTerm(queue), web);
  }

  /** The post ids of the indexable vacancies among `handled`. */
  function IndexableIds(handled: seq<Message>, web: string -> Response): set<string> {
    set m | m in handled && m.Vacancy? && BotMayIndex.MayIndex(web(m.status.account.url)) :: m.status.id
  }

  /** One message adds a document exactly under the id of an indexable vacancy. */
  lemma HandleMessageIds(m: Message, web: string -> Response)
    ensures AddedIds(HandleMessage(m, web)) == IndexableIds([m], web)
  {
    var first := HandleMessage(m, web);
    if first != [] {
      assert forall e :: e in first <==> e == first[0] || e == first[1];
    }
  }

  /** The indexable ids of two stretches of messages are those of each. */
  lemma IndexableIdsSplit(a: seq<Message>, b: seq<Message>, web: string -> Response)
    ensures IndexableIds(a + b, web) == IndexableIds(a, web) + IndexableIds(b, web)
  {
    assert forall x :: x in a + b <==> x in a || x in b;
  }

  /** The consumer indexes under exactly the ids of the indexable vacancies it handles. */
  lemma {:induction false} HandledIds(queue: seq<Message>, web: string -> Response)
    ensures AddedIds(HandleMessages(queue, web)) == IndexableIds(UntilTerm(queue), web)
  {
    if queue != [] && !queue[0].Term? {
      HandledIds(queue[1..], web);
      var m, first := queue[0], HandleMessage(queue[0], web);
      assert AddedIds(HandleMessages(queue, web)) == AddedIds(first) + AddedIds(HandleMessages(queue[1..], web)) by {
        assert HandleMessages(queue, web) == first + HandleMessages(queue[1..], web);
        AddedIdsSplit(first, HandleMessages(queue[1..], web));
      }
      HandleMessageIds(m, web);
      assert IndexableIds(UntilTerm(queue), web) == IndexableIds([m], web) + IndexableIds(UntilTerm(queue[1..]), web) by {
        assert UntilTerm(queue) == [m] + UntilTerm(queue[1..]);
        IndexableIdsSplit([m], UntilTerm(queue[1..]), web);
      }
    }
  }

  /** What the consumer leaves in the index: it gains exactly the ids of the
      indexable vacancies handled, and every other document stays as it was. */
  lemma HandlingIndexes(ix: Index, queue: seq<Message>, web: string -> Response)
    ensures ApplyEffects(ix, HandleMessages(queue, web)).Keys == ix.Keys + IndexableIds(UntilTerm(queue), web)
    ensures forall id :: id in ix && id !in IndexableIds(UntilTerm(queue), web) ==>
              ApplyEffects(ix, HandleMessages(queue, web))[id] == ix[id]
  {
    HandledIds(queue, web);
  }

  /** The latest version of a post wins: when no later indexable vacancy handled
      has the same post id, the index holds the document of this one. */
  lemma {:induction false} LatestVacancyWins(ix: Index, queue: seq<Message>, web: string -> Response, k: nat)
    requires k < |UntilTerm(queue)| && UntilTerm(queue)[k].Vacancy?
    requires BotMayIndex.MayIndex(web(UntilTerm(queue)[k].status.account.url))
    requires UntilTerm(queue)[k].status.id !in IndexableIds(UntilTerm(queue)[k + 1..], web)
    ensures UntilTerm(queue)[k].status.id in ApplyEffects(ix, HandleMessages(queue, web))
    ensures ApplyEffects(ix, HandleMessages(queue, web))[UntilTerm(queue)[k].status.id]
            == V.FromStatus(UntilTerm(queue)[k].status)
    decreases k
  {
    UntilTermStep(queue);
    if k == 0 {
      FirstVacancyWins(ix, queue, web);
    } else {
      var first, rest := HandleMessage(queue[0], web), HandleMessages(queue[1..], web);
      assert HandleMessages(queue, web) == first + rest;
      ApplyEffectsAppend(ix, first, rest);
      LatestVacancyWins(ApplyEffects(ix, first), queue[1..], web, k - 1);
    }
  }

  /** The case of the first message handled. */
  lemma FirstVacancyWins(ix: Index, queue: seq<Message>, web: string -> Response)
    requires queue != [] && queue[0].Vacancy?
    requires BotMayIndex.MayIndex(web(queue[0].status.account.url))
    requires queue[0].status.id !in IndexableIds(UntilTerm(queue[1..]), web)
    ensures queue[0].status.id in ApplyEffects(ix, HandleMessages(queue, web))
    ensures ApplyEffects(ix, HandleMessages(queue, web))[queue[0].status.id] == V.FromStatus(queue[0].status)
  {
    var s := queue[0].status;
    var first, rest := HandleMessage(queue[0], web), HandleMessages(queue[1..], web);
    assert first == [IndexAdd(V.FromStatus(s)), FavouriteStatus(s.id)];
    assert HandleMessages(queue, web) == [] + first + rest;
    HandledIds(queue[1..], web);
    VacancyEffectsWin(ix, [], s, rest);
  }

  /** A consumer that handles something handles the first message, then goes on
      with the rest of the queue. */
  lemma UntilTermStep(queue: seq<Message>)
    requires |UntilTerm(queue)| > 0
    ensures queue != [] && !queue[0].Term?
    ensures UntilTerm(queue) == [queue[0]] + UntilTerm(queue[1..])
    ensures UntilTerm(queue)[1..] == UntilTerm(queue[1..])
    ensures forall k :: 0 < k < |UntilTerm(queue)| ==>
              UntilTerm(queue[1..])[k - 1] == UntilTerm(queue)[k] && UntilTerm(queue[1..])[k..] == UntilTerm(queue)[k + 1..]
  {
    assert UntilTerm(queue)[0] == queue[0];
  }

  /** The effects of an indexable vacancy, when nothing after them adds under its
      post id, leave its document in the index. */
  lemma VacancyEffectsWin(ix: Index, before: seq<Effect>, s: Status, after: seq<Effect>)
    requires s.id !in AddedIds(after)
    ensures s.id in ApplyEffects(ix, before + [IndexAdd(V.FromStatus(s)), FavouriteStatus(s.id)] + after)
    ensures ApplyEffects(ix, before + [IndexAdd(V.FromStatus(s)), FavouriteStatus(s.id)] + after)[s.id]
            == V.FromStatus(s)
  {
    var trace := before + [IndexAdd(V.FromStatus(s)), FavouriteStatus(s.id)] + after;
    var n := |before|;
    assert trace[n] == IndexAdd(V.FromStatus(s));
    assert trace[n + 1..] == [FavouriteStatus(s.id)] + after;
    AddedIdsSplit([FavouriteStatus(s.id)], after);
    assert AddedIds([FavouriteStatus(s.id)]) == {};
    LastAddWins(ix, trace, n);
  }

  /** `delete`: the hits of the filter `url = '<url>'` are removed one by one. */
  method Delete(ix: Index, url: string) returns (r: Result<Index, string>)
    ensures SearchByUrl(ix, url) == {} <==> r.Err?
    ensures r.Err? ==> r.error == "could not find a vacancy with url: " + url
    ensures r.Ok? ==> SearchByUrl(r.value, url) == {}
    ensures r.Ok? ==> r.value.Keys == ix.Keys - SearchByUrl(ix, url)
    ensures r.Ok? ==> forall id :: id in r.value ==> r.value[id] == ix[id]
  {
    var hits := SearchByUrl(ix, url);
    if hits == {} {
      return Err("could not find a vacancy with url: " + url);
    }
    var remaining := hits;
    var current := ix;
    while remaining != {}
      invariant remaining <= hits
      invariant current.Keys == ix.Keys - (hits - remaining)
      invariant forall id :: id in current ==> current[id] == ix[id]
      decreases |remaining|
    {
      var id :| id in remaining;
      current := current - {id};
      remaining := remaining - {id};
    }
    return Ok(current);
  }

  /** The command-line options `main` looks at. */
  datatype Options = Options(
    help: bool,
    register: bool,
    follow: bool,
    past: bool,
    delete: Option<string>)

  /** The environment of a serving run: whether the Mastodon credentials load,
      the `TAG_FILE` variable, the file system, the hashtag timelines, the web,
      and the index before the run. */
  datatype Environment = Environment(
    credentialsLoad: bool,
    tagFile: Option<string>,
    files: TagFile.Files,
    timeline: string -> seq<Status>,
    web: string -> Response,
    index: Index)

  /** How a run of `main` ends. `Serving` holds what main sends before the
      watchers take over, the effects of handling it, and the resulting index. */
  datatype Outcome =
    | Usage
    | Registered
    | Deleted(result: Result<Index, string>)
    | Panicked(reason: string)
    | Serving(sent: seq<Message>, trace: seq<Effect>, index: Index)

  /** The backfill (`TagFetcher::run_once`): the timeline of each job tag, in tag
      order, each post as a `Vacancy`. */
  function Backfill(tags: seq<string>, timeline: string -> seq<Status>): (sent: seq<Message>)
    ensures forall i :: 0 <= i < |sent| ==> sent[i].Vacancy?
    ensures forall m :: m in sent ==> m.Vacancy? && exists t :: t in tags && m.status in timeline(t)
    ensures forall t, s :: t in tags && s in timeline(t) ==> Vacancy(s) in sent
  {
    if tags == [] then []
    else
      var first := AsVacancies(timeline(tags[0]));
      var rest := Backfill(tags[1..], timeline);
      assert forall t :: t in tags ==> t == tags[0] || t in tags[1..];
      first + rest
  }

  /** The posts of one timeline, in order, each as a `Vacancy`. */
  function AsVacancies(statuses: seq<Status>): (sent: seq<Message>)
    ensures |sent| == |statuses|
    ensures forall i :: 0 <= i < |statuses| ==> sent[i] == Vacancy(statuses[i])
    ensures forall s :: s in statuses ==> Vacancy(s) in sent
  {
    seq(|statuses|, i requires 0 <= i < |statuses| => Vacancy(statuses[i]))
  }

  /** The backfill keeps the order of the tags: the timelines' posts are sent
      tag after tag, so backfilling two lists of tags in turn is backfilling
      their concatenation. */
  lemma {:induction false} BackfillAppend(a: seq<string>, b: seq<string>, timeline: string -> seq<Status>)
    ensures Backfill(a + b, timeline) == Backfill(a, timeline) + Backfill(b, timeline)
  {
    if a == [] {
      assert a + b == b;
    } else {
      assert (a + b)[0] == a[0];
      assert (a + b)[1..] == a[1..] + b;
      BackfillAppend(a[1..], b, timeline);
    }
  }

  /** The backfill of one tag is its timeline, post by post and in order. */
  lemma BackfillOfOneTag(t: string, timeline: string -> seq<Status>)
    ensures |Backfill([t], timeline)| == |timeline(t)|
    ensures forall i :: 0 <= i < |timeline(t)| ==> Backfill([t], timeline)[i] == Vacancy(timeline(t)[i])
  {
    assert [t][1..] == [];
  }

  /** What `main` sends on the channel itself: the backfill when asked for the
      past, then either the two watchers' greetings (and, after them, their
      streams, which never end) or a single `Term`. */
  function StartupMessages(o: Options, tags: seq<string>, timeline: string -> seq<Status>): (sent: seq<Message>)
    ensures o.follow ==> forall i :: 0 <= i < |sent| ==> !sent[i].Term?
    ensures !o.follow ==> |sent| > 0 && sent[|sent| - 1] == Term
    ensures !o.follow ==> forall i :: 0 <= i < |sent| - 1 ==> sent[i].Vacancy?
    ensures !o.past ==> sent == if o.follow then Greetings else [Term]
    ensures o.past ==> Backfill(tags, timeline) <= sent
    ensures o.past ==> sent[|Backfill(tags, timeline)|..] == if o.follow then Greetings else [Term]
  {
    var backfill := if o.past then Backfill(tags, timeline) else [];
    backfill + if o.follow then Greetings else [Term]
  }

  const Greetings: seq<Message> :=
    [Generic("📨 Listening for vacancies"), Generic("📨 Listening for notifications")]

  /** `main`: help, register and delete return before anything else; then the
      credentials are loaded, the tag file is read (both panic on failure), and the
      consumer handles what main sends. */
  method Run(o: Options, env: Environment) returns (outcome: Outcome)
    ensures o.help <==> outcome == Usage
    ensures !o.help && o.register <==> outcome == Registered
    ensures !o.help && !o.register && o.delete.Some? <==> outcome.Deleted?
    ensures outcome.Deleted? ==> (outcome.result.Err? <==> SearchByUrl(env.index, o.delete.value) == {})
    ensures outcome.Deleted? && outcome.result.Err? ==>
              outcome.result.error == "could not find a vacancy with url: " + o.delete.value
    ensures outcome.Deleted? && outcome.result.Ok? ==>
              && outcome.result.value.Keys == env.index.Keys - SearchByUrl(env.index, o.delete.value)
              && (forall id :: id in outcome.result.value ==> outcome.result.value[id] == env.index[id])
              && SearchByUrl(outcome.result.value, o.delete.value) == {}
    ensures outcome.Panicked? <==>
              && !o.help && !o.register && o.delete.None?
              && (|| !env.credentialsLoad
                  || env.tagFile.None?
                  || env.tagFile.value !in env.files)
    ensures outcome.Serving? ==>
              && env.tagFile.Some? && env.tagFile.value in env.files
              && outcome.sent == StartupMessages(o, TagFile.Lines(env.files[env.tagFile.value]), env.timeline)
              && outcome.trace == HandleMessages(outcome.sent, env.web)
              && outcome.index == ApplyEffects(env.index, outcome.trace)
  {
    if o.help {
      return Usage;
    }
    if o.register {
      return Registered;
    }
    if o.delete.Some? {
      var r := Delete(env.index, o.delete.value);
      return Deleted(r);
    }
    if !env.credentialsLoad {
      return Panicked("Failed to load env var. Did you export .env?");
    }
    if env.tagFile.None? {
      return Panicked("called `Result::unwrap()` on an `Err` value: NotPresent");
    }
    var repo := Repo.NewFileRepository(env.files, env.tagFile.value);
    if repo.Err? {
      return Panicked(repo.error);
    }
    var sent := StartupMessages(o, Repo.Tags(repo.value), env.timeline);
    var trace := Consume(sent, env.web);
    return Serving(sent, trace, ApplyEffects(env.index, trace));
  }

  /** Without `follow` the consumer handles exactly the backfill and stops at the
      single `Term`; with it, the consumer keeps handling whatever the watchers
      send after the greetings. */
  lemma ConsumerHandlesBackfill(o: Options, tags: seq<string>, timeline: string -> seq<Status>,
                                streamed: seq<Message>, web: string -> Response)
    ensures !o.follow ==>
              var backfill := if o.past then Backfill(tags, timeline) else [];
              && UntilTerm(StartupMessages(o, tags, timeline) + streamed) == backfill
              && HandleMessages(StartupMessages(o, tags, timeline) + streamed, web) == HandleMessages(backfill, web)
    ensures o.follow ==>
              HandleMessages(StartupMessages(o, tags, timeline) + streamed, web) ==
                HandleMessages(StartupMessages(o, tags, timeline), web) + HandleMessages(streamed, web)
    ensures o.follow ==>
              var backfill := if o.past then Backfill(tags, timeline) else [];
              HandleMessages(StartupMessages(o, tags, timeline) + streamed, web) ==
                HandleMessages(backfill, web) + HandleMessages(streamed, web)
  {
    var backfill := if o.past then Backfill(tags, timeline) else [];
    var sent := StartupMessages(o, tags, timeline);
    assert forall i :: 0 <= i < |backfill| ==> !backfill[i].Term? by {
      forall i | 0 <= i < |backfill| ensures !backfill[i].Term? {
        assert backfill[i] in backfill;
      }
    }
    if o.follow {
      HandleMessagesAppend(sent, streamed, web);
      assert HandleMessages(sent, web) == HandleMessages(backfill, web) by {
        assert sent == backfill + Greetings;
        HandleMessagesAppend(backfill, Greetings, web);
        GreetingsHaveNoEffect(web);
      }
    } else {
      assert sent + streamed == backfill + [Term] + streamed;
      NothingAfterTerm(backfill, streamed, web);
    }
  }

  /** The two greetings have no effect on the consumer. */
  lemma GreetingsHaveNoEffect(web: string -> Response)
    ensures HandleMessages(Greetings, web) == []
  {
    assert Greetings[1..][1..] == [];
  }
}

=== FILE: bot_may_index.dfy ===
/** May a vacancy be indexed? The newer generation's robots check and staleness
    test (bot/src/hunter2/may_index.rs). */
module BotMayIndex {
  import opened Wrappers
  import opened Text
  import opened Robots
  import M = Mastodon

  const StaleAfterDays: int := 62

  /** A robots `content` value forbids indexing when it mentions `noindex` or
      `none` anywhere (plain substring search, case-sensitive). */
  predicate ContentForbidsIndexing(content: string) {
    Contains(content, "noindex") || Contains(content, "none")
  }

  /** `meta_robots_is_allowed`: only the first robots meta element is consulted;
      without one, or without its `content` attribute, indexing is allowed. */
  function MetaRobotsIsAllowed(page: Page): (allowed: bool)
    ensures !allowed <==>
              && |page.robotsMetas| > 0
              && page.robotsMetas[0].Some?
              && ContentForbidsIndexing(page.robotsMetas[0].value)
  {
    match FirstRobotsMeta(page)
    case None => true
    case Some(None) => true
    case Some(Some(content)) => !(Contains(content, "noindex") || Contains(content, "none"))
  }

  /** `may_index`: fetch the profile page, then apply the robots check. */
  function MayIndex(response: Response): (allowed: bool)
    ensures response.Failed? ==> allowed
    ensures response.Received? ==> allowed == MetaRobotsIsAllowed(response.page)
  {
    MetaRobotsIsAllowed(Fetch(response))
  }

  /** Robots meta elements after the first never change the decision. */
  lemma OnlyFirstRobotsMetaCounts(first: Option<string>, rest: seq<Option<string>>, rest': seq<Option<string>>)
    ensures MetaRobotsIsAllowed(Page([first] + rest)) == MetaRobotsIsAllowed(Page([first] + rest'))
  {
  }

  /** "index" mentions neither `noindex` nor `none`. */
  lemma IndexDoesNotForbid()
    ensures !ContentForbidsIndexing("index")
  {
    forall i ensures !OccursAt("index", i, "none") {
      MismatchAt("index", i, "none", 1);
    }
  }

  /** The unit tests of the robots check. */
  lemma MetaRobotsExamples()
    ensures MetaRobotsIsAllowed(EmptyPage)
    ensures MetaRobotsIsAllowed(Page([Some("index")]))
    ensures MetaRobotsIsAllowed(Page([None]))
    ensures !MetaRobotsIsAllowed(Page([Some("none")]))
    ensures !MetaRobotsIsAllowed(Page([Some("noindex")]))
    ensures !MetaRobotsIsAllowed(Page([Some("nosnippet noindex nofollow")]))
    ensures MetaRobotsIsAllowed(Page([Some("index"), Some("noindex")]))
  {
    IndexDoesNotForbid();
    assert OccursAt("none", 0, "none");
    assert OccursAt("noindex", 0, "noindex");
    assert OccursAt("nosnippet noindex nofollow", 10, "noindex");
  }

  /** `is_stale` with the clock passed in: created strictly before `now` minus
      62 days. */
  function IsStale(createdAt: M.Instant, now: M.Instant): (stale: bool)
    ensures stale <==> now - createdAt > StaleAfterDays * M.NanosPerDay
  {
    createdAt < now - StaleAfterDays * M.NanosPerDay
  }

  /** The boundary: a post from now, or exactly 62 days old, is not stale; one a
      nanosecond older than 62 days, or 63 days old, is. */
  lemma StalenessBoundary(now: M.Instant)
    ensures !IsStale(now, now)
    ensures !IsStale(now - 62 * M.NanosPerDay, now)
    ensures IsStale(now - 62 * M.NanosPerDay - 1, now)
    ensures IsStale(now - 63 * M.NanosPerDay, now)
  {
  }

  /** Staleness is monotone: anything older than a stale post is stale, and a
      stale post stays stale as time passes. */
  lemma StalenessMonotone(c: M.Instant, d: M.Instant, now: M.Instant, later: M.Instant)
    requires IsStale(c, now)
    requires d <= c && now <= later
    ensures IsStale(d, now) && IsStale(c, later)
  {
  }
}

=== FILE: bot_messages.dfy ===
/** The message that travels from the stream watchers and the backfill to the
    consumer in the newer generation (bot/src/main.rs). */
module BotMessages {
  import opened Mastodon

  /** The enum in bot/src/main.rs declares `Generic`, `Vacancy` and `Term`; the
      notification watcher also sends `NewMessage` (a reply to post), so the
      variant is part of the model. */
  datatype Message =
    | Generic(text: string)
    | Vacancy(status: Status)
    | NewMessage(reply: NewStatus)
    | Term
}

=== FILE: bot_socket_client.dfy ===
/** The two stream watchers of the newer generation and their classification
    predicates (bot/src/cli/socket_client.rs). Each watcher is modelled by the
    messages it sends for one event, and by a fold over a finite stretch of its
    stream. */
module BotSocketClient {
  import opened Wrappers
  import opened IndexRequest
  import opened Text
  import opened Mastodon
  import opened BotMessages
  import Repo = BotJobTagsRepository
  import opened Streams

  const ThanksText: string :=
    "Thanks for the request! The job posting can now be found at https://search.flockingbird.social/"
  const NotUnderstoodText: string :=
    "I did not understand the request. Did you include the phrase \"index this\"?"

  /** The acknowledgement queued after the parent of an "index this" request. */
  function Thanks(parentId: string): NewStatus {
    NewStatus(ThanksText, Some(parentId), None)
  }

  /** The answer to a notification without the request phrase. */
  function NotUnderstood(statusId: string): NewStatus {
    NewStatus(NotUnderstoodText, Some(statusId), None)
  }

  /** `tags.iter().map(|t| t.name).any(|e| job_tags.contains(&e))`. */
  function AnyTagIn(tags: seq<Tag>, jobTags: seq<string>): (found: bool)
    ensures found <==> exists i :: 0 <= i < |tags| && tags[i].name in jobTags
  {
    if tags == [] then false
    else if tags[0].name in jobTags then true
    else
      var rest := AnyTagIn(tags[1..], jobTags);
      assert forall i :: 1 <= i < |tags| ==> tags[i] == tags[1..][i - 1];
      rest
  }

  /** `has_job_related_tags`: some tag name of the post is, exactly and
      case-sensitively, one of the repository's tags. */
  function HasJobRelatedTags(tags: seq<Tag>, repo: Repo.Repository): (related: bool)
    ensures related <==> exists i :: 0 <= i < |tags| && tags[i].name in Repo.Tags(repo)
    ensures tags == [] || Repo.Tags(repo) == [] ==> !related
  {
    |tags| > 0 && AnyTagIn(tags, Repo.Tags(repo))
  }

  /** The unit tests, against a memory repository holding "jobs". */
  lemma JobTagExamples()
    ensures HasJobRelatedTags([Tag("jobs", "")], Repo.MemoryRepository(["jobs"]))
    ensures HasJobRelatedTags([Tag("jobs", ""), Tag("steve", "")], Repo.MemoryRepository(["jobs"]))
    ensures !HasJobRelatedTags([], Repo.MemoryRepository(["jobs"]))
    ensures !HasJobRelatedTags([Tag("steve", "")], Repo.MemoryRepository(["jobs"]))
    ensures !HasJobRelatedTags([Tag("Jobs", "")], Repo.MemoryRepository(["jobs"]))
  {
    assert [Tag("jobs", ""), Tag("steve", "")][0].name == "jobs";
  }

  /** `has_indexme_request`: the expression `\Windex\s?this\W` matches. */
  predicate HasIndexThisRequest(content: string) {
    IsMatch(Pattern("this"), content)
  }

  /** The request holds exactly when some position has a non-word character,
      `index`, at most one whitespace character, `this`, and a non-word character. */
  lemma HasIndexThisRequestIff(content: string)
    ensures HasIndexThisRequest(content) <==>
              exists i :: 0 <= i < |content| && PhraseAt(content, i, "this")
  {
    IsMatchIffHasRequest(content, "this");
  }

  const AskedInSentence := "<p>Hi there, @hunter2@example.com, please index this, if you will?<p>"

  lemma AskedInSentenceIndex()
    ensures |AskedInSentence| == 69 && !IsWordChar(AskedInSentence[41]) && IndexFollows(AskedInSentence, 41)
  {
  }

  lemma AskedInSentenceWord()
    ensures |AskedInSentence| == 69 && CharsAt(AskedInSentence, 47, " ") && CharsAt(AskedInSentence, 48, "this")
    ensures !IsWordChar(AskedInSentence[52])
  {
  }

  /** A unit test that recognises a request in running text. */
  lemma IndexThisInSentence()
    ensures HasIndexThisRequest(AskedInSentence)
  {
    AskedInSentenceIndex();
    AskedInSentenceWord();
    ShowMatch(AskedInSentence, 41, " ", "this");
  }

  /** A unit test that recognises the run-together word. */
  lemma IndexThisAsOneWord()
    ensures HasIndexThisRequest("<p>indexthis<p>")
  {
    var s := "<p>indexthis<p>";
    assert |s| == 15;
    ShowMatch(s, 2, "", "this");
  }

  /** A unit test that recognises the run-together word as a hashtag. */
  lemma IndexThisAsHashtag()
    ensures HasIndexThisRequest("<p>please <a href=\"\">#indexthis</a>!<p>")
  {
    var s := "<p>please <a href=\"\">#indexthis</a>!<p>";
    assert |s| == 39;
    ShowMatch(s, 21, "", "this");
  }

  /** A line feed counts as the one whitespace character. */
  lemma IndexThisAcrossLineFeed()
    ensures HasIndexThisRequest(" index\nthis ")
  {
    var s := " index\nthis ";
    assert |s| == 12;
    ShowMatch(s, 0, "\n", "this");
  }

  /** A unit test that rejects content without the phrase. */
  lemma NoIndexThisInQuestion()
    ensures !HasIndexThisRequest("<p>are you a bot?<p>")
  {
    var s := "<p>are you a bot?<p>";
    assert |s| == 20;
    assert NoIndexIn(s, 0, 20) by {
      assert NoIndexIn(s, 16, 20);
      assert NoIndexIn(s, 12, 20);
      assert NoIndexIn(s, 8, 20);
      assert NoIndexIn(s, 4, 20);
    }
    RefuteExceptAt(s, "this", 20);
  }

  /** A unit test that rejects "index" and "this" far apart. */
  lemma NoIndexThisWhenStretched()
    ensures !HasIndexThisRequest(StretchedQuestion)
    ensures StretchedQuestion == "<p>Where is the index? Could you tell me?<p>"
  {
    NoRequestInStretchedQuestion("this");
  }

  /** A unit test that rejects the phrase inside longer words. */
  lemma NoIndexThisInPartialWords()
    ensures !HasIndexThisRequest("<p>reindex thistle<p>")
  {
    var s := "<p>reindex thistle<p>";
    assert |s| == 21;
    assert NoIndexIn(s, 0, 4);
    assert NoIndexIn(s, 5, 21) by {
      assert NoIndexIn(s, 17, 21);
      assert NoIndexIn(s, 13, 21);
      assert NoIndexIn(s, 9, 21);
    }
    RefuteExceptAt(s, "this", 4);
  }

  /** `\W` must consume a character on both sides: the phrase touching the start
      or the end of the content does not match. */
  lemma IndexThisNeedsSurroundingCharacters()
    ensures !HasIndexThisRequest("index this")
    ensures !HasIndexThisRequest(" index this")
    ensures !HasIndexThisRequest("index this ")
  {
    var s0 := "index this";
    assert |s0| == 10;
    assert NoIndexIn(s0, 0, 10) by {
      assert NoIndexIn(s0, 6, 10);
      assert NoIndexIn(s0, 2, 10);
    }
    RefuteExceptAt(s0, "this", 10);
    var s1 := " index this";
    assert |s1| == 11;
    assert NoIndexIn(s1, 1, 11) by {
      assert NoIndexIn(s1, 7, 11);
      assert NoIndexIn(s1, 3, 11);
    }
    MismatchAt(s1, 6, "this", 0);
    RefuteExceptAt(s1, "this", 0);
    var s2 := "index this ";
    assert |s2| == 11;
    assert NoIndexIn(s2, 0, 11) by {
      assert NoIndexIn(s2, 7, 11);
      assert NoIndexIn(s2, 3, 11);
    }
    RefuteExceptAt(s2, "this", 11);
  }

  /** Two spaces, an intervening word, or a capital letter defeat the expression. */
  lemma IndexThisIsStrict()
    ensures !HasIndexThisRequest(" index  this ")
    ensures !HasIndexThisRequest(" index like this ")
    ensures !HasIndexThisRequest(" Index this ")
  {
    var s0 := " index  this ";
    assert |s0| == 13;
    assert NoIndexIn(s0, 1, 13) by {
      assert NoIndexIn(s0, 9, 13);
      assert NoIndexIn(s0, 5, 13);
    }
    MismatchAt(s0, 6, "this", 0);
    MismatchAt(s0, 7, "this", 0);
    RefuteExceptAt(s0, "this", 0);
    var s1 := " index like this ";
    assert |s1| == 17;
    assert NoIndexIn(s1, 1, 17) by {
      assert NoIndexIn(s1, 13, 17);
      assert NoIndexIn(s1, 9, 17);
      assert NoIndexIn(s1, 5, 17);
    }
    MismatchAt(s1, 6, "this", 0);
    MismatchAt(s1, 7, "this", 0);
    RefuteExceptAt(s1, "this", 0);
    var s2 := " Index this ";
    assert |s2| == 12;
    assert NoIndexIn(s2, 0, 12) by {
      assert NoIndexIn(s2, 8, 12);
      assert NoIndexIn(s2, 4, 12);
    }
    RefuteExceptAt(s2, "this", 12);
  }

  /** `is_in_reply_to`: the parent of the notification's status, looked up with
      `get_status`. A failed lookup is unwrapped, which panics: `Err`. */
  function IsInReplyTo(n: Notification, getStatus: string -> Option<Status>): (r: Result<Option<Status>, string>)
    ensures r.Ok? && r.value.None? <==> n.status.None? || n.status.value.inReplyToId.None?
    ensures r.Ok? && r.value.Some? ==>
              && n.status.Some? && n.status.value.inReplyToId.Some?
              && getStatus(n.status.value.inReplyToId.value) == Some(r.value.value)
    ensures r.Err? ==>
              && n.status.Some? && n.status.value.inReplyToId.Some?
              && getStatus(n.status.value.inReplyToId.value).None?
  {
    match n.status
    case None => Ok(None)
    case Some(status) =>
      match status.inReplyToId
      case None => Ok(None)
      case Some(parentId) =>
        match getStatus(parentId)
        case None => Err("get_status failed")
        case Some(parent) => Ok(Some(parent))
  }

  /** The body of `capture_updates` for one event. */
  function CaptureUpdate(repo: Repo.Repository, e: Event): (sent: seq<Message>)
    ensures |sent| <= 1
    ensures |sent| == 1 <==> e.UpdateEvent? && HasJobRelatedTags(e.status.tags, repo)
    ensures |sent| == 1 ==> sent[0] == Vacancy(e.status)
  {
    match e
    case UpdateEvent(status) =>
      if HasJobRelatedTags(status.tags, repo) then [Vacancy(status)] else []
    case _ => []
  }

  /** The body of `capture_notifications` for one event; `Err` when the watcher
      thread panics on a failed parent lookup. */
  function CaptureNotification(getStatus: string -> Option<Status>, e: Event): (r: Result<seq<Message>, string>)
    ensures !e.NotificationEvent? || e.notification.status.None? ==> r == Ok([])
    ensures e.NotificationEvent? && e.notification.status.Some? ==>
              var s := e.notification.status.value;
              && (!HasIndexThisRequest(s.content) ==> r == Ok([NewMessage(NotUnderstood(s.id))]))
              && (HasIndexThisRequest(s.content) && s.inReplyToId.None? ==> r == Ok([]))
              && (HasIndexThisRequest(s.content) && s.inReplyToId.Some? ==>
                    match getStatus(s.inReplyToId.value)
                    case None => r.Err?
                    case Some(parent) => r == Ok([Vacancy(parent), NewMessage(Thanks(parent.id))]))
  {
    match e
    case NotificationEvent(n) =>
      (match n.status
       case None => Ok([])
       case Some(s) =>
         if HasIndexThisRequest(s.content) then
           match IsInReplyTo(n, getStatus)
           case Err(why) => Err(why)
           case Ok(None) => Ok([])
           case Ok(Some(parent)) => Ok([Vacancy(parent), NewMessage(Thanks(parent.id))])
         else Ok([NewMessage(NotUnderstood(s.id))]))
    case _ => Ok([])
  }

  /** The public-timeline watcher over a finite stretch of its stream. */
  function WatchUpdates(repo: Repo.Repository, events: seq<Event>): (sent: seq<Message>)
    ensures |sent| <= |events|
    ensures forall m :: m in sent ==>
              m.Vacancy? && UpdateEvent(m.status) in events && HasJobRelatedTags(m.status.tags, repo)
    ensures forall s :: UpdateEvent(s) in events && HasJobRelatedTags(s.tags, repo) ==> Vacancy(s) in sent
  {
    if events == [] then []
    else
      var rest := WatchUpdates(repo, events[1..]);
      assert forall e :: e in events ==> e == events[0] || e in events[1..];
      CaptureUpdate(repo, events[0]) + rest
  }

  /** For a single event the update watcher sends what `CaptureUpdate` gives. */
  lemma WatchUpdatesOne(repo: Repo.Repository, e: Event)
    ensures WatchUpdates(repo, [e]) == CaptureUpdate(repo, e)
  {
    assert [e][1..] == [];
  }

  /** The watcher sends the messages of consecutive stretches of the stream one
      after the other: its output keeps the order of the events. */
  lemma {:induction false} WatchUpdatesAppend(repo: Repo.Repository, a: seq<Event>, b: seq<Event>)
    ensures WatchUpdates(repo, a + b) == WatchUpdates(repo, a) + WatchUpdates(repo, b)
  {
    if a == [] {
      assert a + b == b;
    } else {
      assert (a + b)[0] == a[0];
      assert (a + b)[1..] == a[1..] + b;
      WatchUpdatesAppend(repo, a[1..], b);
    }
  }

  /** Every vacancy is directly followed by the acknowledgement addressed to it. */
  predicate ThanksFollowsEachVacancy(sent: seq<Message>) {
    forall i :: 0 <= i < |sent| && sent[i].Vacancy? ==>
      i + 1 < |sent| && sent[i + 1] == NewMessage(Thanks(sent[i].status.id))
  }

  /** Every reply the watcher queues is addressed to some status. */
  predicate RepliesAreAddressed(sent: seq<Message>) {
    forall i :: 0 <= i < |sent| && sent[i].NewMessage? ==> sent[i].reply.inReplyToId.Some?
  }

  lemma PairingConcat(ms: seq<Message>, rest: seq<Message>)
    requires ThanksFollowsEachVacancy(ms) && ThanksFollowsEachVacancy(rest)
    requires RepliesAreAddressed(ms) && RepliesAreAddressed(rest)
    ensures ThanksFollowsEachVacancy(ms + rest) && RepliesAreAddressed(ms + rest)
  {
    var all := ms + rest;
    forall i | 0 <= i < |all| && all[i].Vacancy?
      ensures i + 1 < |all| && all[i + 1] == NewMessage(Thanks(all[i].status.id))
    {
      if i < |ms| {
        assert all[i + 1] == ms[i + 1];
      } else {
        assert all[i] == rest[i - |ms|];
      }
    }
    forall i | 0 <= i < |all| && all[i].NewMessage?
      ensures all[i].reply.inReplyToId.Some?
    {
      if i < |ms| {
        assert all[i] == ms[i];
      } else {
        assert all[i] == rest[i - |ms|];
      }
    }
  }

  /** The user-stream watcher (`capture_notifications`) over a finite stretch of
      its stream: it panics at the first failed parent lookup, keeping what it
      already sent, and until then it sends the messages of every event. */
  function WatchNotifications(getStatus: string -> Option<Status>, events: seq<Event>): (w: Watch<Message>)
    ensures ThanksFollowsEachVacancy(w.sent)
    ensures RepliesAreAddressed(w.sent)
    ensures |w.sent| <= 2 * |events|
    ensures w.crashed <==> exists i :: 0 <= i < |events| && CaptureNotification(getStatus, events[i]).Err?
    ensures forall m :: m in w.sent ==>
              exists i :: 0 <= i < |events| && CaptureNotification(getStatus, events[i]).Ok?
                && m in CaptureNotification(getStatus, events[i]).value
    ensures !w.crashed ==>
              forall i, m ::
                0 <= i < |events| && CaptureNotification(getStatus, events[i]).Ok?
                && m in CaptureNotification(getStatus, events[i]).value
                ==> m in w.sent
  {
    var step := e => CaptureNotification(getStatus, e);
    var p := ms => ThanksFollowsEachVacancy(ms) && RepliesAreAddressed(ms);
    forall a, b | p(a) && p(b) ensures p(a + b) {
      PairingConcat(a, b);
    }
    forall i | 0 <= i < |events| && step(events[i]).Ok?
      ensures p(step(events[i]).value) && |step(events[i]).value| <= 2
    {
      var ms := step(events[i]).value;
      if |ms| == 2 {
        assert ms[0].Vacancy? && ms[1] == NewMessage(Thanks(ms[0].status.id));
      }
    }
    WatchingKeeps(step, events, p);
    WatchingBound(step, events, 2);
    Watching(step, events)
  }

  /** For a single event the notification watcher does what
      `CaptureNotification` does: it sends the messages, or panics. */
  lemma WatchNotificationsOne(getStatus: string -> Option<Status>, e: Event)
    ensures CaptureNotification(getStatus, e).Ok? ==>
              WatchNotifications(getStatus, [e]) == Watch(CaptureNotification(getStatus, e).value, false)
    ensures CaptureNotification(getStatus, e).Err? ==> WatchNotifications(getStatus, [e]) == Watch([], true)
  {
    WatchingOne(e => CaptureNotification(getStatus, e), e);
  }

  /** The notification watcher handles consecutive stretches of its stream one
      after the other; a panic in the first stretch ends it there. */
  lemma WatchNotificationsAppend(getStatus: string -> Option<Status>, a: seq<Event>, b: seq<Event>)
    ensures WatchNotifications(getStatus, a).crashed ==>
              WatchNotifications(getStatus, a + b) == WatchNotifications(getStatus, a)
    ensures !WatchNotifications(getStatus, a).crashed ==>
              && WatchNotifications(getStatus, a + b).sent ==
                   WatchNotifications(getStatus, a).sent + WatchNotifications(getStatus, b).sent
              && WatchNotifications(getStatus, a + b).crashed == WatchNotifications(getStatus, b).crashed
  {
    WatchingAppend(e => CaptureNotification(getStatus, e), a, b);
  }
}

=== FILE: index_request.dfy ===
/** The "index this" / "index me" request detector. Both generations of the bot
    use the regular expression `\Windex\s?<word>\W` and differ only in the final
    word, so the word is a parameter here.

    Two readings are given and proved equal: `MatchesFrom`, a backtracking matcher
    over the tokens of the expression, which decides the same language as
    `Regex::is_match` without following the regex crate's automaton, and
    `PhraseAt`, the positional statement "a non-word character, then `index`, then
    at most one whitespace character, then the word, then a non-word character". */
module IndexRequest {
  import opened Text

  /** One element of the expression. */
  datatype Token = NonWordChar | Literal(c: char) | OptionalSpace

  function Literals(w: string): seq<Token> {
    seq(|w|, k requires 0 <= k < |w| => Literal(w[k]))
  }

  /** `\Windex\s?<word>\W` as tokens. */
  function Pattern(word: string): seq<Token> {
    [NonWordChar] + Literals("index") + [OptionalSpace] + Literals(word) + [NonWordChar]
  }

  /** The tokens of `p` from index `k` on match `s` starting at character `j`.
      `\s?` is greedy but backtracks, so both of its alternatives are tried. */
  predicate MatchesFrom(p: seq<Token>, k: nat, s: string, j: nat)
    decreases |p| - k
  {
    if k >= |p| then true
    else match p[k]
      case NonWordChar => j < |s| && !IsWordChar(s[j]) && MatchesFrom(p, k + 1, s, j + 1)
      case Literal(c) => j < |s| && s[j] == c && MatchesFrom(p, k + 1, s, j + 1)
      case OptionalSpace =>
        || (j < |s| && IsSpace(s[j]) && MatchesFrom(p, k + 1, s, j + 1))
        || MatchesFrom(p, k + 1, s, j)
  }

  /** `Regex::is_match`: the expression matches starting somewhere in `s`. */
  predicate IsMatch(p: seq<Token>, s: string) {
    exists j: nat :: j <= |s| && MatchesFrom(p, 0, s, j)
  }

  /** No match starts at `j` or later; evaluated position by position. */
  predicate NoMatchFrom(p: seq<Token>, s: string, j: nat)
    decreases |s| + 1 - j
  {
    j > |s| || (!MatchesFrom(p, 0, s, j) && NoMatchFrom(p, s, j + 1))
  }

  /** `word` starts at `j` and a non-word character follows it. */
  predicate WordThenBoundaryAt(s: string, j: int, word: string) {
    OccursAt(s, j, word) && j + |word| < |s| && !IsWordChar(s[j + |word|])
  }

  /** The request phrase starts at `i`: a non-word character, `index`, at most one
      whitespace character, `word`, a non-word character. */
  predicate PhraseAt(s: string, i: int, word: string) {
    && 0 <= i < |s|
    && !IsWordChar(s[i])
    && OccursAt(s, i + 1, "index")
    && (|| WordThenBoundaryAt(s, i + 6, word)
        || (i + 6 < |s| && IsSpace(s[i + 6]) && WordThenBoundaryAt(s, i + 7, word)))
  }

  /** Some position of `s` starts the request phrase. */
  predicate HasRequest(s: string, word: string) {
    exists i :: 0 <= i < |s| && PhraseAt(s, i, word)
  }

  /** A run of literal tokens matches exactly an occurrence of its text. */
  lemma {:induction false} LiteralsMatch(p: seq<Token>, k: nat, x: string, s: string, j: nat)
    requires k + |x| <= |p| && p[k..k + |x|] == Literals(x)
    requires j <= |s|
    ensures MatchesFrom(p, k, s, j) <==>
              OccursAt(s, j, x) && MatchesFrom(p, k + |x|, s, j + |x|)
    decreases |x|
  {
    if |x| > 0 {
      assert p[k] == p[k..k + |x|][0] == Literal(x[0]);
      OccursAtCons(s, j, x);
      if j < |s| {
        assert p[k + 1..k + 1 + |x[1..]|] == p[k..k + |x|][1..];
        assert Literals(x)[1..] == Literals(x[1..]);
        LiteralsMatch(p, k + 1, x[1..], s, j + 1);
      }
    }
  }

  /** The tokens after `\s?` match at `j` exactly when the word and a boundary follow. */
  lemma TailMatch(word: string, s: string, j: nat)
    requires j <= |s|
    ensures MatchesFrom(Pattern(word), 7, s, j) <==> WordThenBoundaryAt(s, j, word)
  {
    var p := Pattern(word);
    assert p[7..7 + |word|] == Literals(word);
    LiteralsMatch(p, 7, word, s, j);
    assert p[7 + |word|] == NonWordChar;
    if j + |word| < |s| {
      assert MatchesFrom(p, 8 + |word|, s, j + |word| + 1);
    }
  }

  /** The token matcher started at `i` agrees with the positional reading. */
  lemma PatternMatchesIffPhrase(s: string, word: string, i: nat)
    requires i <= |s|
    ensures MatchesFrom(Pattern(word), 0, s, i) <==> PhraseAt(s, i, word)
  {
    var p := Pattern(word);
    assert p[0] == NonWordChar;
    if i < |s| {
      assert p[1..6] == Literals("index");
      LiteralsMatch(p, 1, "index", s, i + 1);
      if OccursAt(s, i + 1, "index") {
        assert p[6] == OptionalSpace;
        TailMatch(word, s, i + 6);
        if i + 6 < |s| {
          TailMatch(word, s, i + 7);
        }
      }
    }
  }

  /** `is_match` of the expression holds exactly when the phrase occurs somewhere. */
  lemma IsMatchIffHasRequest(s: string, word: string)
    ensures IsMatch(Pattern(word), s) <==> HasRequest(s, word)
  {
    if IsMatch(Pattern(word), s) {
      var j: nat :| j <= |s| && MatchesFrom(Pattern(word), 0, s, j);
      PatternMatchesIffPhrase(s, word, j);
    }
    if HasRequest(s, word) {
      var i :| 0 <= i < |s| && PhraseAt(s, i, word);
      PatternMatchesIffPhrase(s, word, i);
    }
  }

  /** The five characters after `j` spell `index`; checked character by character. */
  predicate IndexFollows(s: string, j: nat) {
    && j + 6 <= |s|
    && s[j + 1] == 'i' && s[j + 2] == 'n' && s[j + 3] == 'd' && s[j + 4] == 'e' && s[j + 5] == 'x'
  }

  /** The phrase starts only where `index` follows. */
  lemma PhraseNeedsIndex(s: string, i: int, word: string)
    ensures PhraseAt(s, i, word) ==> IndexFollows(s, i)
  {
    if PhraseAt(s, i, word) {
      var t := s[i + 1..i + 6];
      assert t == "index";
      assert t[0] == s[i + 1] && t[1] == s[i + 2] && t[2] == s[i + 3];
      assert t[3] == s[i + 4] && t[4] == s[i + 5];
    }
  }

  /** `w` occurs at `j`; checked character by character. */
  predicate CharsAt(s: string, j: nat, w: string)
    decreases |w|
  {
    |w| == 0 || (j < |s| && s[j] == w[0] && CharsAt(s, j + 1, w[1..]))
  }

  lemma {:induction false} CharsAtOccurs(s: string, j: nat, w: string)
    requires j <= |s| && CharsAt(s, j, w)
    ensures OccursAt(s, j, w)
    decreases |w|
  {
    if |w| > 0 {
      CharsAtOccurs(s, j + 1, w[1..]);
      OccursAtCons(s, j, w);
    }
  }

  /** Exhibiting a match: a non-word character at `i`, `index`, `gap` (empty or one
      whitespace character), the word, and a non-word character. */
  lemma ShowMatch(s: string, i: nat, gap: string, word: string)
    requires i < |s| && !IsWordChar(s[i]) && IndexFollows(s, i)
    requires |gap| <= 1 && CharsAt(s, i + 6, gap) && (|gap| == 1 ==> IsSpace(gap[0]))
    requires CharsAt(s, i + 6 + |gap|, word)
    requires i + 6 + |gap| + |word| < |s| && !IsWordChar(s[i + 6 + |gap| + |word|])
    ensures IsMatch(Pattern(word), s)
  {
    assert s[i + 1..i + 6] == "index";
    CharsAtOccurs(s, i + 6 + |gap|, word);
    if |gap| == 1 {
      assert s[i + 6] == gap[0];
    }
    assert PhraseAt(s, i, word);
    IsMatchIffHasRequest(s, word);
  }

  /** No position in `[lo, hi)` is followed by `index`. */
  predicate NoIndexIn(s: string, lo: nat, hi: nat)
    decreases hi - lo
  {
    lo >= hi || (!IndexFollows(s, lo) && NoIndexIn(s, lo + 1, hi))
  }

  /** Where `index` does not follow, the phrase cannot start. */
  lemma {:induction false} NoIndexInSound(s: string, word: string, lo: nat, hi: nat)
    requires NoIndexIn(s, lo, hi)
    ensures forall i :: lo <= i < hi ==> !PhraseAt(s, i, word)
    decreases hi - lo
  {
    if lo < hi {
      PhraseNeedsIndex(s, lo, word);
      NoIndexInSound(s, word, lo + 1, hi);
    }
  }

  /** Refuting `is_match` when `index` follows at most position `q` and the phrase
      does not start there. */
  lemma RefuteExceptAt(s: string, word: string, q: nat)
    requires NoIndexIn(s, 0, q) && NoIndexIn(s, q + 1, |s|)
    requires !PhraseAt(s, q, word)
    ensures !IsMatch(Pattern(word), s)
  {
    NoIndexInSound(s, word, 0, q);
    NoIndexInSound(s, word, q + 1, |s|);
    IsMatchIffHasRequest(s, word);
  }

  /** The position-by-position scan is sound: it rules out every later start. */
  lemma {:induction false} NoMatchFromSound(p: seq<Token>, s: string, j: nat)
    requires NoMatchFrom(p, s, j)
    ensures forall j': nat :: j <= j' <= |s| ==> !MatchesFrom(p, 0, s, j')
    decreases |s| + 1 - j
  {
    if j <= |s| {
      NoMatchFromSound(p, s, j + 1);
    }
  }

  /** A scan from the first position that finds nothing refutes `is_match`. */
  lemma NoMatchRefutes(p: seq<Token>, s: string)
    requires NoMatchFrom(p, s, 0)
    ensures !IsMatch(p, s)
  {
    NoMatchFromSound(p, s, 0);
  }

  /** A word-and-boundary occurrence survives adding text on either side. */
  lemma WordThenBoundaryInContext(a: string, s: string, b: string, j: int, word: string)
    requires WordThenBoundaryAt(s, j, word)
    ensures WordThenBoundaryAt(a + s + b, |a| + j, word)
  {
    OccursAtInContext(a, s, b, j, word);
    assert (a + s + b)[|a| + j + |word|] == s[j + |word|];
  }

  /** A phrase occurrence survives adding text on either side. */
  lemma PhraseAtInContext(a: string, s: string, b: string, i: int, word: string)
    requires PhraseAt(s, i, word)
    ensures PhraseAt(a + s + b, |a| + i, word)
  {
    var t := a + s + b;
    assert t[|a| + i] == s[i];
    OccursAtInContext(a, s, b, i + 1, "index");
    if WordThenBoundaryAt(s, i + 6, word) {
      WordThenBoundaryInContext(a, s, b, i + 6, word);
    } else {
      assert t[|a| + i + 6] == s[i + 6];
      WordThenBoundaryInContext(a, s, b, i + 7, word);
    }
  }

  /** A request stays a request when text is added before or after it. */
  lemma HasRequestInContext(a: string, s: string, b: string, word: string)
    requires HasRequest(s, word)
    ensures HasRequest(a + s + b, word)
  {
    var i :| 0 <= i < |s| && PhraseAt(s, i, word);
    PhraseAtInContext(a, s, b, i, word);
  }

  /** Unit-test content of both generations: `index` and the word are far apart. */
  const StretchedQuestion := "<p>Where is the index? Could you tell me?<p>"

  lemma StretchedQuestionMiddle()
    ensures NoIndexIn(StretchedQuestion, 8, 15)
  {
    assert |StretchedQuestion| == 44;
    assert NoIndexIn(StretchedQuestion, 12, 15);
  }

  lemma StretchedQuestionStart()
    ensures NoIndexIn(StretchedQuestion, 0, 15)
  {
    StretchedQuestionMiddle();
    assert |StretchedQuestion| == 44;
    assert NoIndexIn(StretchedQuestion, 4, 15);
  }

  lemma StretchedQuestionEnd()
    ensures NoIndexIn(StretchedQuestion, 16, 44)
  {
    assert |StretchedQuestion| == 44;
    assert NoIndexIn(StretchedQuestion, 40, 44);
    assert NoIndexIn(StretchedQuestion, 36, 44);
    assert NoIndexIn(StretchedQuestion, 32, 44);
    assert NoIndexIn(StretchedQuestion, 28, 44);
    assert NoIndexIn(StretchedQuestion, 24, 44);
    assert NoIndexIn(StretchedQuestion, 20, 44);
  }

  lemma StretchedQuestionAfterIndex()
    ensures |StretchedQuestion| == 44 && StretchedQuestion[21] == '?'
  {
  }

  /** The only `index` is followed by `?`, so no word can complete the phrase. */
  lemma NoRequestInStretchedQuestion(word: string)
    requires |word| > 0 && IsWordChar(word[0])
    ensures !IsMatch(Pattern(word), StretchedQuestion)
  {
    StretchedQuestionStart();
    StretchedQuestionEnd();
    StretchedQuestionAfterIndex();
    MismatchAt(StretchedQuestion, 21, word, 0);
    RefuteExceptAt(StretchedQuestion, word, 15);
  }
}

=== FILE: mastodon.dfy ===
/** The entities of the Mastodon client library the bot consumes (statuses,
    accounts, notifications, stream events) and the reply it builds. Only the
    fields the bot reads or copies are kept, plus a few it drops, so that the
    conversions below are not the identity. */
module Mastodon {
  import opened Wrappers

  /** A point in time (chrono's `DateTime<Utc>`), as nanoseconds since the Unix
      epoch. */
  type Instant = int

  const NanosPerMilli: int := 1_000_000
  const NanosPerDay: int := 86_400 * 1_000_000_000

  datatype Account = Account(
    id: string,
    username: string,
    acct: string,
    displayName: string,
    avatar: string,
    avatarStatic: string,
    url: string,
    note: string)

  /** A hashtag on a status, as the server normalised it. */
  datatype Tag = Tag(name: string, url: string)

  datatype MediaType = Image | Video | Gifv | Unknown

  datatype Attachment = Attachment(
    id: string,
    mediaType: MediaType,
    url: string,
    remoteUrl: Option<string>,
    previewUrl: string,
    textUrl: Option<string>,
    description: Option<string>)

  /** A link preview. */
  datatype Card = Card(
    url: string,
    title: string,
    description: string,
    image: Option<string>,
    providerName: Option<string>)

  /** A post. `content` is HTML. */
  datatype Status = Status(
    id: string,
    uri: string,
    url: Option<string>,
    account: Account,
    inReplyToId: Option<string>,
    content: string,
    createdAt: Instant,
    mediaAttachments: seq<Attachment>,
    tags: seq<Tag>,
    card: Option<Card>,
    language: Option<string>)

  datatype NotificationType = Mention | Reblog | Favourite | Follow

  datatype Notification = Notification(
    id: string,
    notificationType: NotificationType,
    account: Account,
    status: Option<Status>)

  /** One item of a streaming connection. */
  datatype Event =
    | UpdateEvent(status: Status)
    | NotificationEvent(notification: Notification)
    | DeleteEvent(deletedId: string)
    | FiltersChanged

  /** What `StatusBuilder::build` produces: a status to post, optionally as a
      reply to another status. */
  datatype NewStatus = NewStatus(text: string, inReplyToId: Option<string>, language: Option<string>)
}

=== FILE: robots.dfy ===
/** The page the robots check looks at. HTML parsing is abstracted: a parsed page
    is the list of its `meta[name="robots"]` elements in document order, each
    given by its `content` attribute (`None` when the element has none). */
module Robots {
  import opened Wrappers

  datatype Page = Page(robotsMetas: seq<Option<string>>)

  /** Outcome of the HTTP GET of a profile URL. */
  datatype Response = Failed | Received(page: Page)

  /** The parse of an empty body: it has no elements at all. */
  const EmptyPage := Page([])

  /** `fetch`: a failed request leaves the body empty. */
  function Fetch(r: Response): Page {
    match r
    case Failed => EmptyPage
    case Received(page) => page
  }

  /** `fragment.select(&selector).next()`: the first robots meta element, if any,
      and its `content` attribute. */
  function FirstRobotsMeta(page: Page): Option<Option<string>> {
    if page.robotsMetas == [] then None else Some(page.robotsMetas[0])
  }
}

=== FILE: search_index.dfy ===
/** The Meilisearch "vacancies" index, abstracted as a map from document id
    (the index's primary key) to document. */
module SearchIndex {
  import opened Wrappers
  import opened Vacancies

  type Index = map<string, Vacancy>

  /** Every document is stored under its own id. */
  predicate WellKeyed(ix: Index) {
    forall id :: id in ix ==> ix[id].id == id
  }

  /** `add_documents` with primary key `id`: an upsert. */
  function Add(ix: Index, v: Vacancy): (ix': Index)
    ensures v.id in ix' && ix'[v.id] == v
    ensures ix'.Keys == ix.Keys + {v.id}
    ensures forall id :: id in ix && id != v.id ==> ix'[id] == ix[id]
    ensures WellKeyed(ix) ==> WellKeyed(ix')
  {
    ix[v.id := v]
  }

  /** Adding the same document twice leaves one copy: the upsert is idempotent,
      and a later version of a document replaces the earlier one. */
  lemma AddIdempotent(ix: Index, v: Vacancy, w: Vacancy)
    requires v.id == w.id
    ensures Add(Add(ix, v), v) == Add(ix, v)
    ensures Add(Add(ix, v), w) == Add(ix, w)
    ensures |Add(Add(ix, v), v).Keys| == |Add(ix, v).Keys|
  {
  }

  /** The ids of the documents the filter `url = '<url>'` selects. */
  function SearchByUrl(ix: Index, url: string): (hits: set<string>)
    ensures forall id :: id in hits <==> id in ix && ix[id].url == Some(url)
  {
    set id | id in ix && ix[id].url == Some(url)
  }

  /** A search after an upsert: the added document is a hit exactly when its url
      is the one searched for, and the other hits are those of before. */
  lemma SearchAfterAdd(ix: Index, v: Vacancy, url: string)
    ensures SearchByUrl(Add(ix, v), url)
            == (SearchByUrl(ix, url) - {v.id}) + (if v.url == Some(url) then {v.id} else {})
  {
    var after := Add(ix, v);
    assert forall id :: id in after && id != v.id ==> after[id] == ix[id];
  }
}

=== FILE: src_job_tags.dfy ===
/** The tag file of the older generation (src/job_tags.rs): `tags` reads the file
    afresh every time it is asked. */
module SrcJobTags {
  import opened Wrappers
  import opened TagFile

  /** The `Debug` text of the I/O error `read_to_string` returns for a missing
      file on Linux. */
  const NotFoundError: string :=
    "Os { code: 2, kind: NotFound, message: \"No such file or directory\" }"

  /** `job_tags::tags`: the lines of the file, or the panic of a missing file.
      The panic goes through `Result::expect`, so its message is the given text,
      ": ", and the I/O error. */
  function Tags(files: Files, fileName: string): (r: Result<seq<string>, string>)
    ensures r.Err? <==> fileName !in files
    ensures r.Err? ==> "file not found: " + fileName + ": " <= r.error
    ensures r.Ok? ==> r.value == Lines(files[fileName])
  {
    match ReadAll(files, fileName)
    case Ok(tags) => Ok(tags)
    case Err(why) => Err(why + ": " + NotFoundError)
  }

  /** A tag file written one tag per line is read back as the same tags, in the
      same order, verbatim. */
  lemma TagsOfWrittenFile(files: Files, fileName: string, tags: seq<string>)
    requires forall i :: 0 <= i < |tags| ==> PlainLine(tags[i])
    ensures Tags(files[fileName := Unlines(tags)], fileName) == Ok(tags)
  {
    LinesOfUnlines(tags);
  }
}

/** The job-tag repositories of the older generation
    (src/ports/job_tags_repository.rs). The file repository keeps only the file
    name and reads the file on every `tags()` call. */
module SrcJobTagsRepository {
  import opened Wrappers
  import opened TagFile
  import Bot = BotJobTagsRepository

  datatype Repository =
    | FileRepository(fileName: string)
    | MemoryRepository(tags: seq<string>)

  /** `JobTagsRepository::tags` against the file system as it is at the call. */
  function Tags(repo: Repository, files: Files): (r: Result<seq<string>, string>)
    ensures repo.MemoryRepository? ==> r == Ok(repo.tags)
    ensures repo.FileRepository? ==>
              && (r.Err? <==> repo.fileName !in files)
              && (r.Err? ==> r.error == "file not found: " + repo.fileName)
              && (r.Ok? ==> r.value == Lines(files[repo.fileName]))
  {
    match repo
    case FileRepository(fileName) => ReadAll(files, fileName)
    case MemoryRepository(tags) => Ok(tags)
  }

  /** Where the two generations part: after the file changes, the older file
      repository serves the new lines, while the newer one, built before the
      change, still serves the old ones. They agree exactly when the change left
      the lines as they were. */
  lemma FileRepositoryRereads(fileName: string, files: Files, later: Files)
    requires fileName in files && fileName in later
    ensures Tags(FileRepository(fileName), later) == Ok(Lines(later[fileName]))
    ensures Bot.NewFileRepository(files, fileName).Ok?
    ensures (Tags(FileRepository(fileName), later).value ==
               Bot.Tags(Bot.NewFileRepository(files, fileName).value)) <==>
            Lines(later[fileName]) == Lines(files[fileName])
  {
  }
}

=== FILE: src_main.dfy ===
/** The older generation in one piece (src/main.rs): its classification
    predicates, its two stream watchers, its consumer and its start-up.

    The consumer is a fold over the messages it receives, producing the trace of
    effects it has on the outside world; the tag file is re-read from the file
    system every time a post's tags are checked. */
module SrcMain {
  import opened Wrappers
  import opened IndexRequest
  import opened Text
  import opened Mastodon
  import opened Robots
  import opened TagFile
  import V = Vacancies
  import SrcJobTags
  import SrcMayIndex
  import opened Streams

  /** The message from the watchers and the backfill to the consumer. */
  datatype Message =
    | Generic(text: string)
    | Vacancy(status: Status)
    | IndexMe(status: Status)
    | ReplyUnderstood(status: Status)
    | ReplyDontUnderstand(status: Status)
    | Term

  /** The panic of `unwrap` on the `Err` of `std::env::var` for an unset variable. */
  const UnsetVariable: string := "called `Result::unwrap()` on an `Err` value: NotPresent"

  /** `std::env::var("TAG_FILE").unwrap()` followed by `job_tags::tags`: an unset
      variable or a missing file panics. */
  function ReadTagFile(tagFile: Option<string>, files: Files): (r: Result<seq<string>, string>)
    ensures r.Err? <==> tagFile.None? || tagFile.value !in files
    ensures r.Ok? ==> r.value == Lines(files[tagFile.value])
  {
    match tagFile
    case None => Err(UnsetVariable)
    case Some(fileName) => SrcJobTags.Tags(files, fileName)
  }

  /** Some tag name of a post is, exactly and case-sensitively, in `jobTags`. */
  predicate HasListedTag(tags: seq<Tag>, jobTags: seq<string>) {
    exists i :: 0 <= i < |tags| && tags[i].name in jobTags
  }

  /** The `any` over the tag names: the file is read again for each name tried. */
  function AnyTagListed(tags: seq<Tag>, tagFile: Option<string>, files: Files): (r: Result<bool, string>)
    ensures tags != [] ==> (r.Err? <==> ReadTagFile(tagFile, files).Err?)
    ensures tags == [] ==> r == Ok(false)
    ensures r.Ok? && tags != [] ==> (r.value <==> HasListedTag(tags, ReadTagFile(tagFile, files).value))
  {
    if tags == [] then Ok(false)
    else
      match ReadTagFile(tagFile, files)
      case Err(e) => Err(e)
      case Ok(jobTags) =>
        if tags[0].name in jobTags then Ok(true)
        else
          var rest := AnyTagListed(tags[1..], tagFile, files);
          assert forall i :: 1 <= i < |tags| ==> tags[i] == tags[1..][i - 1];
          rest
  }

  /** `has_job_related_tags`: the post has tags and one of their names is, exactly,
      a line of the tag file. A post without tags never touches the file. */
  function HasJobRelatedTags(tags: seq<Tag>, tagFile: Option<string>, files: Files): (r: Result<bool, string>)
    ensures tags == [] ==> r == Ok(false)
    ensures tags != [] ==> (r.Err? <==> tagFile.None? || tagFile.value !in files)
    ensures r.Ok? && tags != [] ==> (r.value <==> HasListedTag(tags, Lines(files[tagFile.value])))
  {
    if tags == [] then Ok(false) else AnyTagListed(tags, tagFile, files)
  }

  /** The unit tests, with a tag file that lists "jobs". */
  lemma JobTagExamples(files: Files)
    requires "job_tags.txt" in files && files["job_tags.txt"] == Unlines(["jobs"])
    ensures HasJobRelatedTags([Tag("jobs", "")], Some("job_tags.txt"), files) == Ok(true)
    ensures HasJobRelatedTags([Tag("jobs", ""), Tag("steve", "")], Some("job_tags.txt"), files) == Ok(true)
    ensures HasJobRelatedTags([], Some("job_tags.txt"), files) == Ok(false)
    ensures HasJobRelatedTags([Tag("steve", "")], Some("job_tags.txt"), files) == Ok(false)
    ensures HasJobRelatedTags([Tag("jobs", "")], None, files).Err?
  {
    LinesOfUnlines(["jobs"]);
    assert [Tag("jobs", ""), Tag("steve", "")][0].name == "jobs";
  }

  /** The expression `\Windex\s?me\W`. */
  const IndexMePattern: seq<Token> := Pattern("me")

  /** `has_indexme_request`: the expression `\Windex\s?me\W` matches. */
  predicate HasIndexMeRequest(content: string) {
    IsMatch(IndexMePattern, content)
  }

  /** The request holds exactly when some position has a non-word character,
      `index`, at most one whitespace character, `me`, and a non-word character. */
  lemma HasIndexMeRequestIff(content: string)
    ensures HasIndexMeRequest(content) <==>
              exists i :: 0 <= i < |content| && PhraseAt(content, i, "me")
  {
    IsMatchIffHasRequest(content, "me");
  }

  const AskedInSentence := "<p>Hi there, @hunter2@example.com, please index me, if you will?<p>"

  lemma AskedInSentenceIndex()
    ensures |AskedInSentence| == 67 && !IsWordChar(AskedInSentence[41]) && IndexFollows(AskedInSentence, 41)
  {
  }

  lemma AskedInSentenceWord()
    ensures |AskedInSentence| == 67 && CharsAt(AskedInSentence, 47, " ") && CharsAt(AskedInSentence, 48, "me")
    ensures !IsWordChar(AskedInSentence[50])
  {
  }

  /** A unit test that recognises a request in running text. */
  lemma IndexMeInSentence()
    ensures HasIndexMeRequest(AskedInSentence)
  {
    AskedInSentenceIndex();
    AskedInSentenceWord();
    ShowMatch(AskedInSentence, 41, " ", "me");
  }

  /** A unit test that recognises the run-together word between two tags. */
  lemma IndexMeBetweenTags()
    ensures HasIndexMeRequest("<p>please <a href=\"\">#<span>vacancy</span>indexme<span></a>!<p>")
  {
    var s := "<p>please <a href=\"\">#<span>vacancy</span>indexme<span></a>!<p>";
    assert |s| == 63;
    ShowMatch(s, 41, "", "me");
  }

  /** Unit tests that reject content without the phrase, with the words far
      apart, and inside longer words; and, as the comment on the expression
      says, with a word in between. */
  lemma NoIndexMeExamples()
    ensures !HasIndexMeRequest("<p>are you a bot?<p>")
    ensures !HasIndexMeRequest(StretchedQuestion)
    ensures !HasIndexMeRequest("<p>reindex meebo<p>")
    ensures !HasIndexMeRequest(" index like me ")
  {
    var s0 := "<p>are you a bot?<p>";
    assert |s0| == 20;
    assert NoIndexIn(s0, 0, 20) by {
      assert NoIndexIn(s0, 16, 20);
      assert NoIndexIn(s0, 12, 20);
      assert NoIndexIn(s0, 8, 20);
      assert NoIndexIn(s0, 4, 20);
    }
    RefuteExceptAt(s0, "me", 20);
    NoRequestInStretchedQuestion("me");
    var s1 := "<p>reindex meebo<p>";
    assert |s1| == 19;
    assert NoIndexIn(s1, 0, 4);
    assert NoIndexIn(s1, 5, 19) by {
      assert NoIndexIn(s1, 15, 19);
      assert NoIndexIn(s1, 11, 19);
      assert NoIndexIn(s1, 7, 19);
    }
    RefuteExceptAt(s1, "me", 4);
    var s2 := " index like me ";
    assert |s2| == 15;
    assert NoIndexIn(s2, 1, 15) by {
      assert NoIndexIn(s2, 11, 15);
      assert NoIndexIn(s2, 7, 15);
      assert NoIndexIn(s2, 3, 15);
    }
    MismatchAt(s2, 6, "me", 0);
    MismatchAt(s2, 7, "me", 0);
    RefuteExceptAt(s2, "me", 0);
  }

  /** The body of `capture_notifications` for one event. */
  function CaptureNotification(e: Event): (sent: seq<Message>)
    ensures |sent| <= 2
    ensures sent == [] <==> !e.NotificationEvent? || e.notification.status.None?
    ensures WellPairedRequests(sent)
    ensures sent != [] ==>
              var s := e.notification.status.value;
              && (forall i :: 0 <= i < |sent| ==> !sent[i].Generic? && !sent[i].Term? && sent[i].status == s)
              && (forall i :: 0 <= i < |sent| - 1 ==> sent[i].IndexMe?)
              && (sent[|sent| - 1].ReplyUnderstood? || sent[|sent| - 1].ReplyDontUnderstand?)
              && (sent[|sent| - 1].ReplyUnderstood? <==> HasIndexMeRequest(s.content))
    ensures e.NotificationEvent? && e.notification.status.Some? ==>
              var s := e.notification.status.value;
              && (HasIndexMeRequest(s.content) ==> sent == [IndexMe(s), ReplyUnderstood(s)])
              && (!HasIndexMeRequest(s.content) ==> sent == [ReplyDontUnderstand(s)])
  {
    match e
    case NotificationEvent(n) =>
      (match n.status
       case None => []
       case Some(s) =>
         if HasIndexMeRequest(s.content) then [IndexMe(s), ReplyUnderstood(s)]
         else [ReplyDontUnderstand(s)])
    case _ => []
  }

  /** Every "index me" is directly followed by the reply that it was understood,
      and each message about a status agrees with the status's content. */
  predicate WellPairedRequests(sent: seq<Message>) {
    && (forall i :: 0 <= i < |sent| && sent[i].IndexMe? ==>
          i + 1 < |sent| && sent[i + 1] == ReplyUnderstood(sent[i].status))
    && (forall i :: 0 <= i < |sent| && sent[i].IndexMe? ==> HasIndexMeRequest(sent[i].status.content))
    && (forall i :: 0 <= i < |sent| && sent[i].ReplyDontUnderstand? ==>
          !HasIndexMeRequest(sent[i].status.content))
  }

  lemma WellPairedConcat(a: seq<Message>, b: seq<Message>)
    requires WellPairedRequests(a) && WellPairedRequests(b)
    ensures WellPairedRequests(a + b)
  {
    var t := a + b;
    forall i | 0 <= i < |t|
      ensures t[i] == if i < |a| then a[i] else b[i - |a|]
    {
    }
    forall i | 0 <= i < |t| && t[i].IndexMe?
      ensures i + 1 < |t| && t[i + 1] == ReplyUnderstood(t[i].status)
    {
      if i < |a| {
        assert t[i + 1] == a[i + 1];
      }
    }
  }

  /** The user-stream watcher (`capture_notifications`) over a finite stretch of
      its stream. Handling a notification never panics, so the watcher sends the
      messages of every event, in the order of the events. */
  function WatchNotifications(events: seq<Event>): (sent: seq<Message>)
    ensures WellPairedRequests(sent)
    ensures |sent| <= 2 * |events|
    ensures forall m :: m in sent ==> exists i :: 0 <= i < |events| && m in CaptureNotification(events[i])
    ensures forall i, m :: 0 <= i < |events| && m in CaptureNotification(events[i]) ==> m in sent
  {
    var step := e => Ok(CaptureNotification(e));
    forall a, b | WellPairedRequests(a) && WellPairedRequests(b) ensures WellPairedRequests(a + b) {
      WellPairedConcat(a, b);
    }
    WatchingKeeps(step, events, WellPairedRequests);
    WatchingBound(step, events, 2);
    Watching(step, events).sent
  }

  /** The notification watcher sends what `CaptureNotification` gives for a
      single event. */
  lemma WatchNotificationsOne(e: Event)
    ensures WatchNotifications([e]) == CaptureNotification(e)
  {
    WatchingOne(e => Ok(CaptureNotification(e)), e);
  }

  /** The notification watcher handles consecutive stretches of its stream one
      after the other. */
  lemma WatchNotificationsAppend(a: seq<Event>, b: seq<Event>)
    ensures WatchNotifications(a + b) == WatchNotifications(a) + WatchNotifications(b)
  {
    WatchingAppend(e => Ok(CaptureNotification(e)), a, b);
  }

  /** The body of `capture_updates` for one event; `Err` when the watcher thread
      panics reading the tag file. */
  function CaptureUpdate(e: Event, tagFile: Option<string>, files: Files): (r: Result<seq<Message>, string>)
    ensures r.Err? <==> e.UpdateEvent? && HasJobRelatedTags(e.status.tags, tagFile, files).Err?
    ensures r.Ok? ==> |r.value| <= 1
    ensures r.Ok? ==>
              (|r.value| == 1 <==> e.UpdateEvent? && HasJobRelatedTags(e.status.tags, tagFile, files) == Ok(true))
    ensures r.Ok? && |r.value| == 1 ==> r.value[0] == Vacancy(e.status)
  {
    match e
    case UpdateEvent(status) =>
      (match HasJobRelatedTags(status.tags, tagFile, files)
       case Err(why) => Err(why)
       case Ok(related) => Ok(if related then [Vacancy(status)] else []))
    case _ => Ok([])
  }

  /** The public-timeline watcher (`capture_updates`) over a finite stretch of
      its stream: every message is the `Vacancy` of a job-tagged update of the
      stretch. */
  function WatchUpdates(events: seq<Event>, tagFile: Option<string>, files: Files): (w: Watch<Message>)
    ensures forall m :: m in w.sent ==>
              m.Vacancy? && UpdateEvent(m.status) in events
              && HasJobRelatedTags(m.status.tags, tagFile, files) == Ok(true)
  {
    var step := e => CaptureUpdate(e, tagFile, files);
    var w := Watching(step, events);
    assert forall m :: m in w.sent ==>
             exists i :: 0 <= i < |events| && step(events[i]).Ok? && m in step(events[i]).value;
    w
  }

  /** The update watcher panics exactly when the tag check of some update panics;
      until then it has sent every job-tagged update. */
  lemma WatchUpdatesComplete(events: seq<Event>, tagFile: Option<string>, files: Files)
    ensures var w := WatchUpdates(events, tagFile, files);
            && (w.crashed <==>
                  exists i :: 0 <= i < |events| && events[i].UpdateEvent?
                    && HasJobRelatedTags(events[i].status.tags, tagFile, files).Err?)
            && (!w.crashed ==>
                  forall s :: UpdateEvent(s) in events && HasJobRelatedTags(s.tags, tagFile, files) == Ok(true) ==>
                    Vacancy(s) in w.sent)
  {
    var step := e => CaptureUpdate(e, tagFile, files);
    var w := Watching(step, events);
    forall s | UpdateEvent(s) in events && HasJobRelatedTags(s.tags, tagFile, files) == Ok(true) && !w.crashed
      ensures Vacancy(s) in w.sent
    {
      var i :| 0 <= i < |events| && events[i] == UpdateEvent(s);
      assert step(events[i]).Ok? && Vacancy(s) in step(events[i]).value;
    }
  }

  /** The update watcher handles consecutive stretches of its stream one after
      the other; a panic in the first stretch ends it there. */
  lemma WatchUpdatesAppend(a: seq<Event>, b: seq<Event>, tagFile: Option<string>, files: Files)
    ensures WatchUpdates(a, tagFile, files).crashed ==>
              WatchUpdates(a + b, tagFile, files) == WatchUpdates(a, tagFile, files)
    ensures !WatchUpdates(a, tagFile, files).crashed ==>
              && WatchUpdates(a + b, tagFile, files).sent ==
                   WatchUpdates(a, tagFile, files).sent + WatchUpdates(b, tagFile, files).sent
              && WatchUpdates(a + b, tagFile, files).crashed == WatchUpdates(b, tagFile, files).crashed
  {
    WatchingAppend(e => CaptureUpdate(e, tagFile, files), a, b);
  }

  /** The reply to an understood "index me". Both replies end with the bot's
      link to a human contact (`CONTACT_HUMAN_MSG`). */
  function UnderstoodText(username: string): string {
    "Nice one " + username + UnderstoodTail
  }

  const UnderstoodTail: string :=
    ", Your account is being indexed and should show up when you search on https://search.flockingbird.social/candidates/ in a few minutes. Good luck with your jobunt. - I am a bot. So please reach out to @flockingbird@fosstodon.org if you want to contact a human."

  /** The reply to a notification without the request phrase. */
  const DontUnderstandText: string :=
    "I'm sorry, I don't understand that. I only understand requests to 'index me', did you forget that phrase? - I am a bot. So please reach out to @flockingbird@fosstodon.org if you want to contact a human."

  /** An action of the consumer on the outside world. `OutputCandidate` stands for
      handing the fetched rich account of `acct` to the output. */
  datatype Effect =
    | OutputVacancy(doc: V.Vacancy)
    | OutputCandidate(acct: string)
    | PostReply(reply: NewStatus)

  /** The effects of handling one message. `web` answers the GET of a profile URL;
      `richAccount` says whether the rich account of an `acct` can be fetched. A
      failed reply is only logged. */
  function HandleMessage(m: Message, web: string -> Response, richAccount: string -> bool): (effects: seq<Effect>)
    ensures |effects| <= 1
    ensures effects == [] <==>
              || m.Generic? || m.Term?
              || (m.Vacancy? && !SrcMayIndex.MayIndex(web(m.status.account.url)))
              || (m.IndexMe? && !richAccount(m.status.account.acct))
    ensures forall e :: e in effects ==>
              && !m.Generic? && !m.Term?
              && (e.OutputVacancy? <==> m.Vacancy?)
              && (e.OutputVacancy? ==> e.doc == V.FromStatus(m.status))
              && (e.OutputCandidate? <==> m.IndexMe?)
              && (e.OutputCandidate? ==> e.acct == m.status.account.acct)
              && (e.PostReply? <==> m.ReplyUnderstood? || m.ReplyDontUnderstand?)
              && (e.PostReply? ==> e.reply.inReplyToId == Some(m.status.id) && e.reply.language == Some("eng"))
              && (m.ReplyUnderstood? ==> e.reply.text == UnderstoodText(m.status.account.username))
              && (m.ReplyDontUnderstand? ==> e.reply.text == DontUnderstandText)
  {
    match m
    case Vacancy(s) =>
      if SrcMayIndex.MayIndex(web(s.account.url)) then [OutputVacancy(V.FromStatus(s))] else []
    case IndexMe(s) =>
      if richAccount(s.account.acct) then [OutputCandidate(s.account.acct)] else []
    case ReplyUnderstood(s) =>
      [PostReply(NewStatus(UnderstoodText(s.account.username), Some(s.id), Some("eng")))]
    case ReplyDontUnderstand(s) =>
      [PostReply(NewStatus(DontUnderstandText, Some(s.id), Some("eng")))]
    case _ => []
  }

  /** Every reply the consumer posts answers some status and is in English. */
  predicate RepliesAreAddressed(trace: seq<Effect>) {
    forall i :: 0 <= i < |trace| && trace[i].PostReply? ==>
      trace[i].reply.inReplyToId.Some? && trace[i].reply.language == Some("eng")
  }

  /** Handling a queue with some per-message handler, stopping at the first `Term`. */
  function Handling(handle: Message -> seq<Effect>, queue: seq<Message>): (trace: seq<Effect>)
    ensures forall e :: e in trace ==> exists i :: 0 <= i < |queue| && e in handle(queue[i])
  {
    if queue == [] || queue[0].Term? then []
    else
      var rest := Handling(handle, queue[1..]);
      assert forall i :: 0 <= i < |queue[1..]| ==> queue[1..][i] == queue[i + 1];
      handle(queue[0]) + rest
  }

  lemma HandlingOne(handle: Message -> seq<Effect>, m: Message)
    requires !m.Term?
    ensures Handling(handle, [m]) == handle(m)
  {
    assert [m][1..] == [];
  }

  lemma {:induction false} HandlingAfterTerm(handle: Message -> seq<Effect>, a: seq<Message>, b: seq<Message>)
    requires forall i :: 0 <= i < |a| ==> !a[i].Term?
    ensures Handling(handle, a + [Term] + b) == Handling(handle, a)
  {
    if a == [] {
      assert (a + [Term] + b)[0] == Term;
    } else {
      var q := a + [Term] + b;
      assert q[0] == a[0];
      assert q[1..] == a[1..] + [Term] + b;
      HandlingAfterTerm(handle, a[1..], b);
    }
  }

  lemma {:induction false} HandlingAppend(handle: Message -> seq<Effect>, a: seq<Message>, b: seq<Message>)
    requires forall i :: 0 <= i < |a| ==> !a[i].Term?
    ensures Handling(handle, a + b) == Handling(handle, a) + Handling(handle, b)
  {
    if a == [] {
      assert a + b == b;
    } else {
      assert (a + b)[0] == a[0];
      assert (a + b)[1..] == a[1..] + b;
      HandlingAppend(handle, a[1..], b);
    }
  }

  /** `handle_messages`: handle each message in turn and stop at the first `Term`. */
  function HandleMessages(queue: seq<Message>, web: string -> Response, richAccount: string -> bool): (trace: seq<Effect>)
    ensures RepliesAreAddressed(trace)
  {
    var handle := m => HandleMessage(m, web, richAccount);
    var trace := Handling(handle, queue);
    assert forall e :: e in trace && e.PostReply? ==> e.reply.inReplyToId.Some? && e.reply.language == Some("eng");
    trace
  }

  /** Nothing after the first `Term` is handled. */
  lemma NothingAfterTerm(a: seq<Message>, b: seq<Message>, web: string -> Response, richAccount: string -> bool)
    requires forall i :: 0 <= i < |a| ==> !a[i].Term?
    ensures HandleMessages(a + [Term] + b, web, richAccount) == HandleMessages(a, web, richAccount)
  {
    HandlingAfterTerm(m => HandleMessage(m, web, richAccount), a, b);
  }

  /** Before any `Term`, a longer queue only extends the trace. */
  lemma HandleMessagesAppend(a: seq<Message>, b: seq<Message>, web: string -> Response, richAccount: string -> bool)
    requires forall i :: 0 <= i < |a| ==> !a[i].Term?
    ensures HandleMessages(a + b, web, richAccount) ==
              HandleMessages(a, web, richAccount) + HandleMessages(b, web, richAccount)
  {
    HandlingAppend(m => HandleMessage(m, web, richAccount), a, b);
  }

  /** From notification to effects: every notification that carries a status is
      answered by exactly one reply to that status; an "index me" request also
      outputs the author's rich account first, when it can be fetched. */
  lemma NotificationIsAnswered(n: Notification, web: string -> Response, richAccount: string -> bool)
    requires n.status.Some?
    ensures var s := n.status.value;
            var trace := HandleMessages(CaptureNotification(NotificationEvent(n)), web, richAccount);
            && |trace| >= 1
            && trace[|trace| - 1].PostReply?
            && trace[|trace| - 1].reply.inReplyToId == Some(s.id)
            && (forall i :: 0 <= i < |trace| - 1 ==> trace[i] == OutputCandidate(s.account.acct))
            && (HasIndexMeRequest(s.content) ==>
                  trace == (if richAccount(s.account.acct) then [OutputCandidate(s.account.acct)] else [])
                             + [PostReply(NewStatus(UnderstoodText(s.account.username), Some(s.id), Some("eng")))])
            && (!HasIndexMeRequest(s.content) ==>
                  trace == [PostReply(NewStatus(DontUnderstandText, Some(s.id), Some("eng")))])
  {
    var s := n.status.value;
    var handle := m => HandleMessage(m, web, richAccount);
    if HasIndexMeRequest(s.content) {
      assert CaptureNotification(NotificationEvent(n)) == [IndexMe(s)] + [ReplyUnderstood(s)];
      HandlingAppend(handle, [IndexMe(s)], [ReplyUnderstood(s)]);
      HandlingOne(handle, IndexMe(s));
      HandlingOne(handle, ReplyUnderstood(s));
    } else {
      assert CaptureNotification(NotificationEvent(n)) == [ReplyDontUnderstand(s)];
      HandlingOne(handle, ReplyDontUnderstand(s));
    }
  }

  /** The command-line options `main` looks at (the output flags `-o` and `-m`
      choose where the consumer's output goes and are not modelled). */
  datatype Options = Options(help: bool, register: bool, follow: bool, past: bool)

  /** The environment of a run: whether OAuth registration succeeds, whether the
      Mastodon credentials load, the `TAG_FILE` variable, the file system, the
      hashtag timelines, the notifications, the web, and the rich-account fetch. */
  datatype Environment = Environment(
    registrationSucceeds: bool,
    credentialsLoad: bool,
    tagFile: Option<string>,
    files: Files,
    timeline: string -> seq<Status>,
    notifications: seq<Notification>,
    web: string -> Response,
    richAccount: string -> bool)

  /** How a run of `main` ends. `Serving` holds what main sends before the
      watchers take over and the effects of handling it. */
  datatype Outcome =
    | Usage
    | Registered(ok: bool)
    | Panicked(reason: string)
    | Serving(sent: seq<Message>, trace: seq<Effect>)

  /** The posts of the timelines that carry a job tag, as `Vacancy` messages, in
      tag order. */
  function BackfillVacancies(tags: seq<string>, jobTags: seq<string>, timeline: string -> seq<Status>): (sent: seq<Message>)
    ensures forall i :: 0 <= i < |sent| ==> sent[i].Vacancy?
    ensures forall m :: m in sent ==>
              && (exists t :: t in tags && m.status in timeline(t))
              && HasListedTag(m.status.tags, jobTags)
    ensures forall t, s :: t in tags && s in timeline(t) && HasListedTag(s.tags, jobTags) ==> Vacancy(s) in sent
  {
    if tags == [] then []
    else
      var first := JobPosts(timeline(tags[0]), jobTags);
      var rest := BackfillVacancies(tags[1..], jobTags, timeline);
      assert forall t :: t in tags ==> t == tags[0] || t in tags[1..];
      first + rest
  }

  /** The backfill goes tag by tag: the backfill over two lists of tags is the
      first list's followed by the second's, duplicates across tags included. */
  lemma {:induction false} BackfillVacanciesAppend(a: seq<string>, b: seq<string>, jobTags: seq<string>,
                                                   timeline: string -> seq<Status>)
    ensures BackfillVacancies(a + b, jobTags, timeline)
            == BackfillVacancies(a, jobTags, timeline) + BackfillVacancies(b, jobTags, timeline)
  {
    if a == [] {
      assert a + b == b;
    } else {
      assert (a + b)[0] == a[0];
      assert (a + b)[1..] == a[1..] + b;
      BackfillVacanciesAppend(a[1..], b, jobTags, timeline);
    }
  }

  /** One tag sends the job posts of its timeline, in timeline order. */
  lemma BackfillVacanciesOne(t: string, jobTags: seq<string>, timeline: string -> seq<Status>)
    ensures BackfillVacancies([t], jobTags, timeline) == JobPosts(timeline(t), jobTags)
  {
    assert [t][1..] == [];
  }

  /** The posts among `statuses` with a tag in `jobTags`, as `Vacancy` messages. */
  function JobPosts(statuses: seq<Status>, jobTags: seq<string>): (sent: seq<Message>)
    ensures |sent| <= |statuses|
    ensures forall i :: 0 <= i < |sent| ==> sent[i].Vacancy?
    ensures forall m :: m in sent ==> m.status in statuses && HasListedTag(m.status.tags, jobTags)
    ensures forall s :: s in statuses && HasListedTag(s.tags, jobTags) ==> Vacancy(s) in sent
  {
    if statuses == [] then []
    else
      var s := statuses[0];
      var rest := JobPosts(statuses[1..], jobTags);
      assert forall t :: t in statuses ==> t == s || t in statuses[1..];
      (if HasListedTag(s.tags, jobTags) then [Vacancy(s)] else []) + rest
  }

  /** The job posts keep the timeline's order: filtering two stretches in turn is
      filtering their concatenation. */
  lemma {:induction false} JobPostsAppend(a: seq<Status>, b: seq<Status>, jobTags: seq<string>)
    ensures JobPosts(a + b, jobTags) == JobPosts(a, jobTags) + JobPosts(b, jobTags)
  {
    if a == [] {
      assert a + b == b;
    } else {
      assert (a + b)[0] == a[0];
      assert (a + b)[1..] == a[1..] + b;
      JobPostsAppend(a[1..], b, jobTags);
    }
  }

  /** The notifications whose status asks "index me", as `IndexMe` messages. */
  function RequestsIn(notifications: seq<Notification>): (sent: seq<Message>)
    ensures |sent| <= |notifications|
    ensures forall i :: 0 <= i < |sent| ==> sent[i].IndexMe? && HasIndexMeRequest(sent[i].status.content)
    ensures forall m :: m in sent ==> m.IndexMe? && exists n :: n in notifications && n.status == Some(m.status)
    ensures forall n :: n in notifications && n.status.Some? && HasIndexMeRequest(n.status.value.content) ==>
              IndexMe(n.status.value) in sent
  {
    if notifications == [] then []
    else
      var n := notifications[0];
      var rest := RequestsIn(notifications[1..]);
      assert forall k :: k in notifications ==> k == n || k in notifications[1..];
      (if n.status.Some? && HasIndexMeRequest(n.status.value.content) then [IndexMe(n.status.value)] else [])
        + rest
  }

  /** The requests keep the order of the notifications: the requests of two
      stretches of notifications are the first's followed by the second's. */
  lemma {:induction false} RequestsInAppend(a: seq<Notification>, b: seq<Notification>)
    ensures RequestsIn(a + b) == RequestsIn(a) + RequestsIn(b)
  {
    if a == [] {
      assert a + b == b;
    } else {
      var head, ra, rb := RequestsIn([a[0]]), RequestsIn(a[1..]), RequestsIn(b);
      assert RequestsIn(a + b) == head + RequestsIn(a[1..] + b) by {
        assert (a + b)[0] == a[0] && (a + b)[1..] == a[1..] + b;
        RequestsInCons(a + b);
      }
      RequestsInAppend(a[1..], b);
      RequestsInCons(a);
      Streams.Regroup(head, ra, rb);
    }
  }

  /** The requests of a notification, then those of the rest. */
  lemma RequestsInCons(ns: seq<Notification>)
    requires ns != []
    ensures RequestsIn(ns) == RequestsIn([ns[0]]) + RequestsIn(ns[1..])
  {
    assert [ns[0]][1..] == [];
  }

  /** One notification sends one `IndexMe` of its status exactly when the status
      asks "index me", and nothing otherwise. */
  lemma RequestsInOne(n: Notification)
    ensures n.status.Some? && HasIndexMeRequest(n.status.value.content) ==> RequestsIn([n]) == [IndexMe(n.status.value)]
    ensures !(n.status.Some? && HasIndexMeRequest(n.status.value.content)) ==> RequestsIn([n]) == []
  {
    assert [n][1..] == [];
  }

  /** With `-p` the backfill is the vacancies of the job tags, tag by tag, then
      the requests, in notification order. */
  lemma BackfillInOrder(o: Options, jobTags: seq<string>, env: Environment)
    requires o.past
    ensures var vacancies := BackfillVacancies(jobTags, jobTags, env.timeline);
            && vacancies <= Backfill(o, jobTags, env)
            && Backfill(o, jobTags, env)[|vacancies|..] == RequestsIn(env.notifications)
  {
  }

  const Greetings: seq<Message> :=
    [Generic(" 📨 Listening for indexme requests"), Generic(" 📨 Listening for vacancies")]

  /** The backfill with `-p`: the job posts of the job tags' timelines, then the
      "index me" requests among the notifications. */
  function Backfill(o: Options, jobTags: seq<string>, env: Environment): (sent: seq<Message>)
    ensures forall i :: 0 <= i < |sent| ==> sent[i].Vacancy? || sent[i].IndexMe?
    ensures !o.past ==> sent == []
    ensures forall m :: m in sent && m.Vacancy? ==>
              && (exists t :: t in jobTags && m.status in env.timeline(t))
              && HasListedTag(m.status.tags, jobTags)
    ensures forall m :: m in sent && m.IndexMe? ==>
              && HasIndexMeRequest(m.status.content)
              && exists n :: n in env.notifications && n.status == Some(m.status)
    ensures o.past ==>
              forall t, s :: t in jobTags && s in env.timeline(t) && HasListedTag(s.tags, jobTags) ==>
                Vacancy(s) in sent
    ensures o.past ==>
              forall n :: n in env.notifications && n.status.Some? && HasIndexMeRequest(n.status.value.content) ==>
                IndexMe(n.status.value) in sent
    ensures o.past ==> forall i, j :: 0 <= i < j < |sent| && sent[j].Vacancy? ==> sent[i].Vacancy?
  {
    if o.past then BackfillVacancies(jobTags, jobTags, env.timeline) + RequestsIn(env.notifications)
    else []
  }

  /** What `main` sends on the channel itself, given the tag file's lines: the
      backfill when asked for the past, then either the two greetings (the
      watchers' streams follow them and never end) or a single `Term`. */
  function StartupMessages(o: Options, jobTags: seq<string>, env: Environment): (sent: seq<Message>)
    ensures o.follow ==> forall i :: 0 <= i < |sent| ==> !sent[i].Term?
    ensures !o.follow ==> |sent| > 0 && sent[|sent| - 1] == Term
    ensures !o.follow ==> forall i :: 0 <= i < |sent| - 1 ==> sent[i].Vacancy? || sent[i].IndexMe?
    ensures !o.past ==> sent == if o.follow then Greetings else [Term]
    ensures Backfill(o, jobTags, env) <= sent
    ensures sent[|Backfill(o, jobTags, env)|..] == if o.follow then Greetings else [Term]
  {
    Backfill(o, jobTags, env) + if o.follow then Greetings else [Term]
  }

  /** The greetings are only logged. */
  lemma GreetingsHaveNoEffect(web: string -> Response, richAccount: string -> bool)
    ensures HandleMessages(Greetings, web, richAccount) == []
  {
    var handle := m => HandleMessage(m, web, richAccount);
    assert Greetings == [Greetings[0]] + [Greetings[1]];
    HandlingAppend(handle, [Greetings[0]], [Greetings[1]]);
    HandlingOne(handle, Greetings[0]);
    HandlingOne(handle, Greetings[1]);
  }

  /** Without `-f` the consumer handles exactly the backfill and stops at the
      single `Term`, whatever arrives after it; with `-f` it keeps handling
      whatever the watchers send after the greetings. */
  lemma ConsumerHandlesBackfill(o: Options, jobTags: seq<string>, env: Environment, streamed: seq<Message>)
    ensures !o.follow ==>
              HandleMessages(StartupMessages(o, jobTags, env) + streamed, env.web, env.richAccount) ==
                HandleMessages(Backfill(o, jobTags, env), env.web, env.richAccount)
    ensures o.follow ==>
              HandleMessages(StartupMessages(o, jobTags, env) + streamed, env.web, env.richAccount) ==
                HandleMessages(StartupMessages(o, jobTags, env), env.web, env.richAccount)
                  + HandleMessages(streamed, env.web, env.richAccount)
    ensures o.follow ==>
              HandleMessages(StartupMessages(o, jobTags, env) + streamed, env.web, env.richAccount) ==
                HandleMessages(Backfill(o, jobTags, env), env.web, env.richAccount)
                  + HandleMessages(streamed, env.web, env.richAccount)
  {
    var backfill := Backfill(o, jobTags, env);
    var sent := StartupMessages(o, jobTags, env);
    if o.follow {
      HandleMessagesAppend(sent, streamed, env.web, env.richAccount);
      HandleMessagesAppend(backfill, Greetings, env.web, env.richAccount);
      GreetingsHaveNoEffect(env.web, env.richAccount);
    } else {
      assert sent + streamed == backfill + [Term] + streamed;
      NothingAfterTerm(backfill, streamed, env.web, env.richAccount);
    }
  }

  /** Reading the tag file once for the backfill and re-reading it for each
      post's check agree, since the file does not change in between. */
  lemma BackfillCheckAgrees(s: Status, tagFile: Option<string>, files: Files)
    requires ReadTagFile(tagFile, files).Ok? && s.tags != []
    ensures HasJobRelatedTags(s.tags, tagFile, files) ==
              Ok(exists j :: 0 <= j < |s.tags| && s.tags[j].name in ReadTagFile(tagFile, files).value)
  {
  }

  /** `main`: help and register return before anything else; then the
      credentials are loaded (a failure panics); the backfill reads the tag file
      (an unset variable or a missing file panics); and the consumer handles what
      main sends. */
  method Run(o: Options, env: Environment) returns (outcome: Outcome)
    ensures o.help <==> outcome == Usage
    ensures !o.help && o.register <==> outcome.Registered?
    ensures outcome.Registered? ==> outcome.ok == env.registrationSucceeds
    ensures outcome.Panicked? <==>
              && !o.help && !o.register
              && (!env.credentialsLoad || (o.past && ReadTagFile(env.tagFile, env.files).Err?))
    ensures outcome.Serving? ==>
              && (o.past ==> ReadTagFile(env.tagFile, env.files).Ok?)
              && outcome.sent ==
                   StartupMessages(o, if o.past then ReadTagFile(env.tagFile, env.files).value else [], env)
              && outcome.trace == HandleMessages(outcome.sent, env.web, env.richAccount)
    ensures outcome.Serving? && !o.follow ==>
              && |outcome.sent| > 0 && outcome.sent[|outcome.sent| - 1] == Term
              && HandleMessages(outcome.sent, env.web, env.richAccount) ==
                HandleMessages(outcome.sent[..|outcome.sent| - 1], env.web, env.richAccount)
  {
    if o.help {
      return Usage;
    }
    if o.register {
      return Registered(env.registrationSucceeds);
    }
    if !env.credentialsLoad {
      return Panicked("Failed to load env var. Did you export .env?");
    }
    var jobTags: seq<string> := [];
    if o.past {
      var read := ReadTagFile(env.tagFile, env.files);
      if read.Err? {
        return Panicked(read.error);
      }
      jobTags := read.value;
    }
    var sent := StartupMessages(o, jobTags, env);
    if !o.follow {
      var backfill := sent[..|sent| - 1];
      assert sent == backfill + [Term] + [];
      NothingAfterTerm(backfill, [], env.web, env.richAccount);
    }
    var trace := HandleMessages(sent, env.web, env.richAccount);
    return Serving(sent, trace);
  }
}

=== FILE: src_may_index.dfy ===
/** May a vacancy be indexed? The older generation's robots check
    (src/may_index.rs). */
module SrcMayIndex {
  import opened Wrappers
  import opened Text
  import opened Robots
  import Bot = BotMayIndex

  /** `determine_meta_robots`: the first robots meta element decides; without one,
      or without its `content` attribute, indexing is allowed; a `content` value
      that contains `noindex` or `none` forbids it. */
  function DetermineMetaRobots(page: Page): (allowed: bool)
    ensures !allowed <==>
              && |page.robotsMetas| > 0
              && page.robotsMetas[0].Some?
              && (Contains(page.robotsMetas[0].value, "noindex") || Contains(page.robotsMetas[0].value, "none"))
  {
    if FirstRobotsMeta(page).Some? then
      match FirstRobotsMeta(page).value
      case Some(content) => !(Contains(content, "noindex") || Contains(content, "none"))
      case None => true
    else true
  }

  /** `may_index`: fetch the profile page (an empty body when the request
      fails), then apply the robots check. */
  function MayIndex(response: Response): (allowed: bool)
    ensures response.Failed? ==> allowed
    ensures response.Received? ==> allowed == DetermineMetaRobots(response.page)
  {
    DetermineMetaRobots(Fetch(response))
  }

  /** The unit tests of `determine_meta_robots`. */
  lemma DetermineMetaRobotsExamples()
    ensures DetermineMetaRobots(EmptyPage)
    ensures DetermineMetaRobots(Page([Some("index")]))
    ensures DetermineMetaRobots(Page([None]))
    ensures !DetermineMetaRobots(Page([Some("none")]))
    ensures !DetermineMetaRobots(Page([Some("noindex")]))
    ensures !DetermineMetaRobots(Page([Some("nosnippet noindex nofollow")]))
  {
    Bot.IndexDoesNotForbid();
    assert OccursAt("none", 0, "none");
    assert OccursAt("noindex", 0, "noindex");
    assert OccursAt("nosnippet noindex nofollow", 10, "noindex");
  }

  /** Both generations take the same indexing decision for every page and every
      outcome of the request. */
  lemma SameDecisionAsBot(page: Page, response: Response)
    ensures DetermineMetaRobots(page) == Bot.MetaRobotsIsAllowed(page)
    ensures MayIndex(response) == Bot.MayIndex(response)
  {
  }
}

=== FILE: streams.dfy ===
/** A stream-watcher thread of either generation, over a finite stretch of its
    stream. Each thread loops over the events of a Mastodon stream and, for each
    event, either sends some messages on the channel or panics; a panic ends the
    thread, and what it already sent stays sent. The watchers of both
    generations are this fold, given what they do with one event. */
module Streams {
  import opened Wrappers

  /** The state of a watcher after a stretch of its stream. */
  datatype Watch<M> = Watch(sent: seq<M>, crashed: bool)

  /** One step of a watcher: a panic ends it, otherwise its messages come first. */
  function Continue<M>(step: Result<seq<M>, string>, rest: Watch<M>): Watch<M> {
    match step
    case Err(_) => Watch([], true)
    case Ok(ms) => Watch(ms + rest.sent, rest.crashed)
  }

  /** A watcher over `events`, given what it does with one event: it panics at
      the first event whose handling panics, keeping what it already sent, and
      until then it sends everything. */
  function Watching<E, M>(step: E -> Result<seq<M>, string>, events: seq<E>): (w: Watch<M>)
    ensures w.crashed <==> exists i :: 0 <= i < |events| && step(events[i]).Err?
    ensures forall m :: m in w.sent ==>
              exists i :: 0 <= i < |events| && step(events[i]).Ok? && m in step(events[i]).value
    ensures !w.crashed ==>
              forall i, m :: 0 <= i < |events| && step(events[i]).Ok? && m in step(events[i]).value ==> m in w.sent
  {
    if events == [] then Watch([], false)
    else
      var rest := Watching(step, events[1..]);
      assert forall i :: 1 <= i < |events| ==> events[i] == events[1..][i - 1];
      Continue(step(events[0]), rest)
  }

  /** A single event: the watcher sends its messages, or panics with nothing sent. */
  lemma WatchingOne<E, M>(step: E -> Result<seq<M>, string>, e: E)
    ensures step(e).Ok? ==> Watching(step, [e]) == Watch(step(e).value, false)
    ensures step(e).Err? ==> Watching(step, [e]) == Watch([], true)
  {
    assert [e][1..] == [];
  }

  /** A watcher handles consecutive stretches of its stream one after the other;
      a panic in the first stretch ends it there. */
  lemma {:induction false} WatchingAppend<E, M>(step: E -> Result<seq<M>, string>, a: seq<E>, b: seq<E>)
    ensures Watching(step, a).crashed ==> Watching(step, a + b) == Watching(step, a)
    ensures !Watching(step, a).crashed ==>
              Watching(step, a + b) == Watch(Watching(step, a).sent + Watching(step, b).sent, Watching(step, b).crashed)
  {
    if a == [] {
      assert a + b == b;
    } else {
      var ab := a + b;
      assert ab[0] == a[0] && ab[1..] == a[1..] + b;
      WatchingAppend(step, a[1..], b);
      var r, wa', wb := step(a[0]), Watching(step, a[1..]), Watching(step, b);
      if r.Ok? {
        assert (r.value + wa'.sent) + wb.sent == r.value + (wa'.sent + wb.sent);
      }
    }
  }

  /** Messages sent in three runs are the same whichever two runs are grouped. */
  lemma Regroup<M>(x: seq<M>, y: seq<M>, z: seq<M>)
    ensures x + (y + z) == (x + y) + z
  {
  }

  /** A property of message sequences that holds of every event's messages, of
      no messages, and of two sequences sent one after the other, holds of
      everything the watcher sends. */
  lemma {:induction false} WatchingKeeps<E, M>(step: E -> Result<seq<M>, string>, events: seq<E>, p: seq<M> -> bool)
    requires p([])
    requires forall i :: 0 <= i < |events| && step(events[i]).Ok? ==> p(step(events[i]).value)
    requires forall a, b :: p(a) && p(b) ==> p(a + b)
    ensures p(Watching(step, events).sent)
  {
    if events != [] {
      assert forall i :: 0 <= i < |events[1..]| ==> events[1..][i] == events[i + 1];
      WatchingKeeps(step, events[1..], p);
      var rest := Watching(step, events[1..]);
      match step(events[0])
      case Err(_) =>
        assert Watching(step, events).sent == [];
      case Ok(ms) =>
        assert p(ms) && p(rest.sent);
        assert Watching(step, events).sent == ms + rest.sent;
    }
  }

  /** When no event yields more than `k` messages, the watcher sends at most `k`
      per event. */
  lemma {:induction false} WatchingBound<E, M>(step: E -> Result<seq<M>, string>, events: seq<E>, k: nat)
    requires forall i :: 0 <= i < |events| && step(events[i]).Ok? ==> |step(events[i]).value| <= k
    ensures |Watching(step, events).sent| <= k * |events|
  {
    if events != [] {
      assert forall i :: 0 <= i < |events[1..]| ==> events[1..][i] == events[i + 1];
      WatchingBound(step, events[1..], k);
      assert k * |events| == k + k * |events[1..]|;
    }
  }
}

=== FILE: tag_file.dfy ===
/** The tag file: UTF-8 text with one job tag per line. Both repositories read
    it the same way: read the whole file (a missing file panics with
    "file not found: <name>"), split it with `str::lines`, and parse each line
    as a `String`, which is the identity. The older `job_tags::tags` reads it
    the same way but panics through `expect`, which appends the I/O error. */
module TagFile {
  import opened Wrappers

  /** The file system as `read_to_string` sees it: a path maps to the file's
      content; a path that is absent cannot be read. */
  type Files = map<string, string>

  /** Position of the first line feed in `s`, or `|s|` when there is none. */
  function LineEnd(s: string): (k: nat)
    ensures k <= |s|
    ensures forall i :: 0 <= i < k ==> s[i] != '\n'
    ensures k < |s| ==> s[k] == '\n'
  {
    if s == [] || s[0] == '\n' then 0 else 1 + LineEnd(s[1..])
  }

  /** A line ending is "\n" or "\r\n": the carriage return of a terminated line
      is not part of the line. */
  function DropCarriageReturn(line: string): string {
    if |line| > 0 && line[|line| - 1] == '\r' then line[..|line| - 1] else line
  }

  /** Rust's `str::lines`: the lines of `s`, split at line endings; a final line
      ending does not start an empty line; an unterminated last line is kept as is. */
  function Lines(s: string): (ls: seq<string>)
    ensures forall i :: 0 <= i < |ls| ==> '\n' !in ls[i]
    decreases |s|
  {
    if s == [] then []
    else
      var k := LineEnd(s);
      if k == |s| then [s]
      else [DropCarriageReturn(s[..k])] + Lines(s[k + 1..])
  }

  /** Writing each line followed by a line feed: the file a list of tags is saved as. */
  function Unlines(ls: seq<string>): string {
    if ls == [] then "" else ls[0] + "\n" + Unlines(ls[1..])
  }

  /** A line that `Lines` can hand back unchanged: no line feed inside and no
      carriage return at its end. */
  predicate PlainLine(l: string) {
    '\n' !in l && (|l| == 0 || l[|l| - 1] != '\r')
  }

  /** `read_all`: the file's lines, or the panic a missing file causes. */
  function ReadAll(files: Files, fileName: string): (r: Result<seq<string>, string>)
    ensures r.Err? <==> fileName !in files
    ensures r.Err? ==> r.error == "file not found: " + fileName
    ensures r.Ok? ==> r.value == Lines(files[fileName])
    ensures r.Ok? ==> forall i :: 0 <= i < |r.value| ==> '\n' !in r.value[i]
  {
    if fileName in files then Ok(Lines(files[fileName]))
    else Err("file not found: " + fileName)
  }

  /** Saving tags one per line and reading them back yields the same tags, in the
      same order, verbatim. */
  lemma {:induction false} LinesOfUnlines(ls: seq<string>)
    requires forall i :: 0 <= i < |ls| ==> PlainLine(ls[i])
    ensures Lines(Unlines(ls)) == ls
  {
    if ls != [] {
      var s := Unlines(ls);
      var l := ls[0];
      assert PlainLine(l);
      assert s == l + "\n" + Unlines(ls[1..]);
      LineEndOfLine(l, Unlines(ls[1..]));
      assert s[..|l|] == l;
      assert s[|l| + 1..] == Unlines(ls[1..]);
      LinesOfUnlines(ls[1..]);
    }
  }

  /** The first line ending of `l + "\n" + rest` is right after `l`. */
  lemma {:induction false} LineEndOfLine(l: string, rest: string)
    requires '\n' !in l
    ensures LineEnd(l + "\n" + rest) == |l|
    decreases |l|
  {
    var s := l + "\n" + rest;
    if l != [] {
      assert s[0] == l[0];
      assert s[1..] == l[1..] + "\n" + rest;
      LineEndOfLine(l[1..], rest);
    } else {
      assert s[0] == '\n';
    }
  }

  /** Conversely, a file without carriage returns that is empty or ends with a
      line feed is exactly its lines written back one per line. */
  lemma {:induction false} UnlinesOfLines(s: string)
    requires '\r' !in s
    requires s == [] || s[|s| - 1] == '\n'
    ensures Unlines(Lines(s)) == s
    decreases |s|
  {
    if s != [] {
      var k := LineEnd(s);
      assert k < |s|;
      var line, rest := s[..k], s[k + 1..];
      assert s == line + "\n" + rest;
      assert Lines(s) == [line] + Lines(rest) by {
        assert '\r' !in line;
      }
      assert Unlines(Lines(rest)) == rest by {
        assert '\r' !in rest;
        UnlinesOfLines(rest);
      }
      assert ([line] + Lines(rest))[1..] == Lines(rest);
    }
  }
}

=== FILE: text.dfy ===
/** Character classes and substring search on strings (`seq<char>`). */
module Text {

  /** The regex class `\w`, read in ASCII: letters, digits and the underscore. */
  predicate IsWordChar(c: char) {
    ('a' <= c <= 'z') || ('A' <= c <= 'Z') || ('0' <= c <= '9') || c == '_'
  }

  /** The regex class `\s`, read in ASCII: space, tab, line feed, vertical tab,
      form feed and carriage return. */
  predicate IsSpace(c: char) {
    c == ' ' || ('\t' <= c <= '\r')
  }

  /** `pat` occurs in `s` starting at position `i`. */
  predicate OccursAt(s: string, i: int, pat: string) {
    0 <= i && i + |pat| <= |s| && s[i..i + |pat|] == pat
  }

  /** Rust's `str::contains` with a string pattern. */
  predicate Contains(s: string, pat: string) {
    exists i :: 0 <= i <= |s| && OccursAt(s, i, pat)
  }

  /** An occurrence is its first character followed by an occurrence of the rest. */
  lemma OccursAtCons(s: string, i: int, pat: string)
    requires |pat| > 0
    ensures OccursAt(s, i, pat) <==>
              0 <= i < |s| && s[i] == pat[0] && OccursAt(s, i + 1, pat[1..])
  {
    if 0 <= i < |s| && s[i] == pat[0] && OccursAt(s, i + 1, pat[1..]) {
      assert s[i..i + |pat|] == [s[i]] + s[i + 1..i + 1 + |pat[1..]|];
    }
    if OccursAt(s, i, pat) {
      assert s[i..i + |pat|][0] == pat[0];
      assert s[i + 1..i + 1 + |pat[1..]|] == s[i..i + |pat|][1..];
    }
  }

  /** A mismatch at offset `k` rules out an occurrence at `i`. */
  lemma MismatchAt(s: string, i: int, pat: string, k: int)
    requires 0 <= k < |pat|
    requires 0 <= i + k < |s| ==> s[i + k] != pat[k]
    ensures !OccursAt(s, i, pat)
  {
    if 0 <= i && i + |pat| <= |s| {
      assert s[i..i + |pat|][k] == s[i + k];
    }
  }

  /** An occurrence stays an occurrence when text is added on either side. */
  lemma OccursAtInContext(a: string, s: string, b: string, i: int, pat: string)
    requires OccursAt(s, i, pat)
    ensures OccursAt(a + s + b, |a| + i, pat)
  {
    assert (a + s + b)[|a| + i..|a| + i + |pat|] == s[i..i + |pat|];
  }

  /** Containment survives adding text on either side. */
  lemma ContainsInContext(a: string, s: string, b: string, pat: string)
    requires Contains(s, pat)
    ensures Contains(a + s + b, pat)
  {
    var i :| OccursAt(s, i, pat);
    OccursAtInContext(a, s, b, i, pat);
  }
}

=== FILE: vacancies.dfy ===
/** The search-index document built from a status (src/vacancy.rs): a flattened
    copy of the fields the search front end shows. The newer generation's own
    vacancy module is not part of this model; it uses this one. */
module Vacancies {
  import opened Wrappers
  import M = Mastodon

  datatype Account = Account(
    id: string,
    acct: string,
    avatar: string,
    avatarStatic: string,
    displayName: string,
    url: string,
    username: string)

  datatype MediaType = Image | Video | Gifv | Unknown

  datatype Attachment = Attachment(
    id: string,
    mediaType: MediaType,
    url: string,
    remoteUrl: Option<string>,
    previewUrl: string)

  datatype Tag = Tag(name: string)

  datatype Card = Card(url: string, title: string, description: string, image: Option<string>)

  datatype Vacancy = Vacancy(
    id: string,
    uri: string,
    url: Option<string>,
    account: Account,
    content: string,
    createdAt: M.Instant,
    createdAtTs: int,
    mediaAttachments: seq<Attachment>,
    tags: seq<Tag>,
    card: Option<Card>,
    language: Option<string>)

  /** chrono's `timestamp_millis`: whole milliseconds since the epoch, rounded
      towards the past (also before the epoch, as chrono splits an instant into
      floor seconds and non-negative sub-second nanoseconds). */
  function TimestampMillis(t: M.Instant): (ms: int)
    ensures ms * M.NanosPerMilli <= t < (ms + 1) * M.NanosPerMilli
  {
    t / M.NanosPerMilli
  }

  /** `Account::from`. */
  function FromAccount(a: M.Account): (r: Account)
    ensures r.id == a.id && r.acct == a.acct && r.username == a.username
    ensures r.avatar == a.avatar && r.avatarStatic == a.avatarStatic
    ensures r.displayName == a.displayName && r.url == a.url
  {
    Account(a.id, a.acct, a.avatar, a.avatarStatic, a.displayName, a.url, a.username)
  }

  /** The media-type match inside `Attachment::from`. */
  function FromMediaType(t: M.MediaType): MediaType {
    match t
    case Image => Image
    case Video => Video
    case Gifv => Gifv
    case Unknown => Unknown
  }

  /** The inverse of the media-type mapping. */
  function ToMediaType(t: MediaType): M.MediaType {
    match t
    case Image => M.Image
    case Video => M.Video
    case Gifv => M.Gifv
    case Unknown => M.Unknown
  }

  /** Each media type maps to the variant of the same name: the two mappings are
      inverse to each other, so the mapping is total, injective and onto. */
  lemma MediaTypeRoundTrip(t: M.MediaType, u: MediaType)
    ensures ToMediaType(FromMediaType(t)) == t
    ensures FromMediaType(ToMediaType(u)) == u
    ensures FromMediaType(t) == u <==> t == ToMediaType(u)
  {
  }

  function FromAttachment(a: M.Attachment): Attachment {
    Attachment(a.id, FromMediaType(a.mediaType), a.url, a.remoteUrl, a.previewUrl)
  }

  /** `Attachment::from`: same length and order; each attachment keeps its id,
      urls and media type. */
  function FromAttachments(as_: seq<M.Attachment>): (r: seq<Attachment>)
    ensures |r| == |as_|
    ensures forall i :: 0 <= i < |as_| ==>
              && r[i].id == as_[i].id && r[i].url == as_[i].url
              && r[i].remoteUrl == as_[i].remoteUrl && r[i].previewUrl == as_[i].previewUrl
              && ToMediaType(r[i].mediaType) == as_[i].mediaType
  {
    if as_ == [] then [] else [FromAttachment(as_[0])] + FromAttachments(as_[1..])
  }

  /** `Tag::from`: same length, same names, same order. */
  function FromTags(ts: seq<M.Tag>): (r: seq<Tag>)
    ensures |r| == |ts|
    ensures forall i :: 0 <= i < |ts| ==> r[i].name == ts[i].name
  {
    if ts == [] then [] else [Tag(ts[0].name)] + FromTags(ts[1..])
  }

  /** `Card::from`, applied through `Option::map`. */
  function FromCard(c: Option<M.Card>): (r: Option<Card>)
    ensures r.None? <==> c.None?
    ensures r.Some? ==> && r.value.url == c.value.url && r.value.title == c.value.title
                        && r.value.description == c.value.description
                        && r.value.image == c.value.image
  {
    match c
    case None => None
    case Some(card) => Some(Card(card.url, card.title, card.description, card.image))
  }

  /** `From<Status> for Vacancy`. */
  function FromStatus(s: M.Status): (v: Vacancy)
    ensures v.id == s.id && v.uri == s.uri && v.url == s.url
    ensures v.content == s.content && v.language == s.language
    ensures v.createdAt == s.createdAt
    ensures v.createdAtTs * M.NanosPerMilli <= s.createdAt < (v.createdAtTs + 1) * M.NanosPerMilli
    ensures v.account == FromAccount(s.account)
    ensures v.mediaAttachments == FromAttachments(s.mediaAttachments)
    ensures v.tags == FromTags(s.tags)
    ensures v.card == FromCard(s.card)
  {
    Vacancy(
      s.id, s.uri, s.url, FromAccount(s.account), s.content, s.createdAt,
      TimestampMillis(s.createdAt), FromAttachments(s.mediaAttachments),
      FromTags(s.tags), FromCard(s.card), s.language)
  }

  /** The parts of an attachment the document keeps. */
  predicate SameKeptAttachment(a: M.Attachment, b: M.Attachment) {
    a.id == b.id && a.mediaType == b.mediaType && a.url == b.url
    && a.remoteUrl == b.remoteUrl && a.previewUrl == b.previewUrl
  }

  /** The parts of an account the document keeps. */
  predicate SameKeptAccount(a: M.Account, b: M.Account) {
    && a.id == b.id && a.acct == b.acct && a.avatar == b.avatar
    && a.avatarStatic == b.avatarStatic && a.displayName == b.displayName
    && a.url == b.url && a.username == b.username
  }

  /** The parts of a link preview the document keeps. */
  predicate SameKeptCard(c: Option<M.Card>, d: Option<M.Card>) {
    && c.Some? == d.Some?
    && (c.Some? ==>
          && c.value.url == d.value.url && c.value.title == d.value.title
          && c.value.description == d.value.description && c.value.image == d.value.image)
  }

  /** The parts of a status the document keeps. */
  predicate SameKeptFields(s: M.Status, t: M.Status) {
    && s.id == t.id && s.uri == t.uri && s.url == t.url
    && s.content == t.content && s.createdAt == t.createdAt && s.language == t.language
    && SameKeptAccount(s.account, t.account)
    && |s.mediaAttachments| == |t.mediaAttachments|
    && (forall i :: 0 <= i < |s.mediaAttachments| ==>
          SameKeptAttachment(s.mediaAttachments[i], t.mediaAttachments[i]))
    && |s.tags| == |t.tags|
    && (forall i :: 0 <= i < |s.tags| ==> s.tags[i].name == t.tags[i].name)
    && SameKeptCard(s.card, t.card)
  }

  /** Two statuses give the same document exactly when they agree on the kept
      fields: the conversion loses everything else and nothing of these. */
  lemma SameDocumentIffSameKeptFields(s: M.Status, t: M.Status)
    ensures FromStatus(s) == FromStatus(t) <==> SameKeptFields(s, t)
  {
    var v, w := FromStatus(s), FromStatus(t);
    if v == w {
      assert |v.mediaAttachments| == |w.mediaAttachments|;
      forall i | 0 <= i < |s.mediaAttachments|
        ensures SameKeptAttachment(s.mediaAttachments[i], t.mediaAttachments[i])
      {
        assert v.mediaAttachments[i] == w.mediaAttachments[i];
      }
      forall i | 0 <= i < |s.tags|
        ensures s.tags[i].name == t.tags[i].name
      {
        assert v.tags[i] == w.tags[i];
      }
    }
    if SameKeptFields(s, t) {
      AttachmentsAgree(s.mediaAttachments, t.mediaAttachments);
      TagsAgree(s.tags, t.tags);
    }
  }

  lemma AttachmentsAgree(as_: seq<M.Attachment>, bs: seq<M.Attachment>)
    requires |as_| == |bs|
    requires forall i :: 0 <= i < |as_| ==> SameKeptAttachment(as_[i], bs[i])
    ensures FromAttachments(as_) == FromAttachments(bs)
  {
    var r, q := FromAttachments(as_), FromAttachments(bs);
    forall i | 0 <= i < |r| ensures r[i] == q[i] {
      MediaTypeRoundTrip(as_[i].mediaType, r[i].mediaType);
      MediaTypeRoundTrip(bs[i].mediaType, q[i].mediaType);
    }
  }

  lemma TagsAgree(ts: seq<M.Tag>, us: seq<M.Tag>)
    requires |ts| == |us|
    requires forall i :: 0 <= i < |ts| ==> ts[i].name == us[i].name
    ensures FromTags(ts) == FromTags(us)
  {
    var r, q := FromTags(ts), FromTags(us);
    assert forall i :: 0 <= i < |r| ==> r[i] == q[i];
  }
}

=== FILE: wrappers.dfy ===
/** The two Rust enums the bot's code leans on: `Option` and `Result`. */
module Wrappers {

  /** A value that may be absent. */
  datatype Option<+T> = None | Some(value: T)

  /** A computation that either succeeded with a value or failed with an error
      (for the bot, a failure is usually a panic and its message). */
  datatype Result<+T, +E> = Ok(value: T) | Err(error: E)
}
